=== FILE: README.md ===
# L-system renderer core, modelled in Dafny

This project models the symbolic core of the browser L-system renderer:

- **Rule-text parsing.** `_parseRules` appears in three identical copies: lsystem.js, renderer.worker.js and js/renderer.worker.js. It splits the rules text on `;` or newline and drops blank pieces. Each piece is split on `=`. A rule is kept only when the text before the first `=` and the text between the first and second `=` are both non-empty before trimming. Key and value are stored trimmed, and a later key overwrites an earlier one. The rules object is a plain `{}`, so an assignment to `__proto__` goes to the inherited setter, which ignores a string; that key is never stored (`rule_text.dfy`, module `RuleText`).
- **Literal rewriting.** lsystem.js `LSystem.generate` replaces every character `c` by `rules[c] || c`, once per iteration. This is the reference semantics (`literal.dfy`, module `Literal`).
- **The turtle's discrete state.** It covers position, heading, the push/pop pose stack, the running bounding box and the `Path2D` command list. It also covers the HTML canvas rule for which path commands actually put ink down (`turtle.dfy`, module `Turtle`).
- **Symbol dispatch.** Three interpreters are modelled (`dispatch.dfy`, module `Dispatch`):
  - lsystem.js `_drawLSystem`.
  - The depth-0 branch of js/renderer.worker.js `run`, where `F` draws and `f` moves.
  - The depth-0 branch of renderer.worker.js `draw`, where only `F` moves.
- **The worklist expansion.** `run`/`draw` use a LIFO stack of `[text, remainingIterations]` frames (`worklist.dfy`, module `Worklist`). The headline theorem is `Worklist.Expand`: the characters the workers interpret, in order, are exactly the n-fold literal rewrite of the axiom. Termination uses the number of pops still to come as its measure.
- **The admission gate.** This is `Canvas.generate` of js/canvas.js, together with `_handleError` and `PanState.reset` (`canvas.dfy`, module `Canvas`).
- **The preset matcher.** This is `_findMatchingPreset` of js/page.js (`page.dfy`, module `Page`).

Supporting modules:

- `JsNumber` (`js_number.dfy`) holds the JavaScript numbers, with `NaN` and the infinities, that reach those validators.
- `Wrappers` (`wrappers.dfy`) holds `Option`.
- `Seqs` (`seqs.dfy`) holds small slicing facts about sequences.

Inputs the model treats as parameters:

- **Trigonometry.** The trigonometric step of `forward` is an opaque direction function `dir` of the heading.
- **Canvas size.** The canvas width and height are parameters.
- **Length estimate.** `ruleSet.calculateLineLength` is a function parameter of the gate.
- **Preset table.** It is a parameter, a sequence of key/preset entries in `Object.entries` order.

Behaviour of the code worth knowing, which the model follows:

- **Per-character lookup.** Rules are looked up one character at a time. A multi-character key such as `F1` is stored but never applied (`Literal.MultiCharKeyIgnored`). The code has no multi-character symbol tokenizer.
- **Stored value.** The stored value is the text between the first and second `=` (`RuleText.ParseKeepsTextBeforeSecondEquals`).
- **Untrimmed truthiness test.** The test runs on the untrimmed parts. So ` =x` stores the key `""`, and `F= ` stores an empty value, which then acts as if absent (`Literal.EmptyValueIsAbsent`).
- **No estimator in the core.** The core files compute no segment estimate and build no memoized composition; the estimate comes from `ruleSet.calculateLineLength`, which is an input here.
- **Empty grammars.** An empty axiom or a rules text that defines nothing is not an error: the empty axiom stays empty, and with no rules the axiom comes back unchanged (`Literal.RewriteEmpty`, `Literal.RewriteWithoutRules`).

## Model

| member | source | states |
|---|---|---|
| RuleText.Trim | js/renderer.worker.js:13 | the trimmed text is no longer than the input and neither of its ends is whitespace |
| RuleText.TrimSlice | js/renderer.worker.js:13 | the trimmed text is a contiguous slice of the input, and everything `trim` cut off before and after it is whitespace |
| RuleText.TrimEmpty | js/renderer.worker.js:9 | a piece trims to the empty string if and only if every character of it is whitespace, which is what the blank-piece filter tests |
| RuleText.TrimFixed | js/renderer.worker.js:13 | text with no whitespace at either end is left exactly as it is |
| RuleText.TrimIdempotent | js/renderer.worker.js:13 | trimming an already trimmed key or value changes nothing |
| RuleText.Split | js/renderer.worker.js:9 | splitting on a separator class always yields one more piece than there are separators, none holding a separator |
| RuleText.SplitJoin | js/renderer.worker.js:9 | the pieces and the separators between them rebuild the original text |
| RuleText.JoinSplit | js/renderer.worker.js:11 | splitting separator-free pieces joined by separators gives back exactly those pieces |
| RuleText.NonBlank | js/renderer.worker.js:9 | the blank-piece filter keeps exactly the pieces that do not trim to empty, and no others |
| RuleText.Entry | js/renderer.worker.js:11-13 | a defined rule's key and value carry no whitespace at either end and hold no `=`, as `trim` of a piece between `=` signs leaves them |
| RuleText.EntryOfAssignment | js/renderer.worker.js:11-13 | a piece `key=value...` defines a rule exactly when the untrimmed key and the text up to the next `=` are both non-empty, and then stores both trimmed |
| RuleText.EntryWithoutEquals | js/renderer.worker.js:11-12 | a piece without `=` defines no rule, because the value is undefined |
| RuleText.BlankDefinesNothing | js/renderer.worker.js:9-12 | a piece made only of whitespace holds no `=`, so it defines no rule even without the blank filter |
| RuleText.Apply | js/renderer.worker.js:13 | storing an entry adds its key (unless it is `__proto__`, whose setter ignores a string) with its value, and every other key keeps its value |
| RuleText.CollectNonBlank | js/renderer.worker.js:9-15 | dropping blank pieces before parsing does not change the rule map |
| RuleText.ParseRules | js/renderer.worker.js:7-17 | every stored key and value is trimmed and holds no `=`, and no `__proto__` key is ever stored |
| RuleText.ParseRulesKeys | js/renderer.worker.js:7-17 | a key is in the parsed map if and only if some piece defines it and it is not `__proto__`; every other piece, whether blank, missing `=` or with an empty side, contributes nothing |
| RuleText.ParseRulesLastWins | js/renderer.worker.js:10-15 | the value stored for a key other than `__proto__` is the one from its last defining piece, so later duplicates overwrite earlier ones |
| RuleText.ParseKeepsTextBeforeSecondEquals | js/renderer.worker.js:9-15 | a rules text that is one piece `key=value` or `key=value=more` parses to exactly one rule, trimmed key to trimmed value, ignoring everything from the second `=` on (`A=B=C` stores `A` to `B`); with the trimmed key `__proto__` it parses to no rule at all |
| Literal.Rewrite | lsystem.js:21-31 | any number of passes never shortens the axiom, and only the empty axiom rewrites to the empty string |
| Literal.Image | lsystem.js:26 | `rules[c] \|\| c` is the rule for `c` when present and non-empty, otherwise `c` itself, and never empty |
| Literal.Step | lsystem.js:24-28 | one pass never shortens the string and maps only the empty string to the empty string |
| Literal.StepConcat | lsystem.js:25-27 | one pass distributes over concatenation |
| Literal.RewriteShift | lsystem.js:23-29 | `n + 1` passes are one pass followed by `n` passes, as well as `n` passes followed by one |
| Literal.RewriteConcat | lsystem.js:23-29 | any number of passes distributes over concatenation |
| Literal.RewriteCompose | lsystem.js:23-29 | `m` passes then `n` passes are `m + n` passes |
| Literal.RewriteUnruled | lsystem.js:26 | a character with no truthy rule is a fixed point of every number of passes |
| Literal.RewriteRuled | lsystem.js:26 | a character with a truthy rule becomes, after `n + 1` passes, its replacement after `n` passes |
| Literal.RewriteEmpty | lsystem.js:23-29 | the empty axiom stays empty |
| Literal.RewriteWithoutRules | lsystem.js:26 | with an empty rule map every number of passes returns the axiom |
| Literal.SameLookupsSameRewrite | lsystem.js:26 | rewriting depends only on the single-character truthy lookups of the rule map |
| Literal.MultiCharKeyIgnored | lsystem.js:26 | adding a rule whose key is not one character changes no rewrite |
| Literal.EmptyValueIsAbsent | lsystem.js:26 | a rule with an empty value rewrites exactly as if it were absent |
| Literal.Pass | lsystem.js:24-28 | the inner loop, appending `rules[c] \|\| c` for each character in turn, produces exactly one pass over the current string |
| Literal.Generate | lsystem.js:21-31 | the nested loops compute the `iterations`-fold rewrite, the axiom for a count of zero or less, and store it as `_current` |
| Turtle.Reset | js/renderer.worker.js:70-81 | `reset` puts the turtle at the bottom centre heading up, with nothing saved, an empty path and a box that holds no point (minima `Infinity`, maxima `-Infinity`) |
| Turtle.Rotate | js/renderer.worker.js:130-132 | `rotate` adds the angle to the heading and leaves position, saved stack, box and path as they were |
| Turtle.UpdateBounds | js/renderer.worker.js:83-88 | after `_updateBounds(x, y)` the box holds the point and still holds the old box |
| Turtle.UpdateBoundsLeast | js/renderer.worker.js:83-88 | any box holding the old box and the point holds the new box, so the update grows the box minimally |
| Turtle.RotateOnlyTurns | renderer.worker.js:124-126 | `rotate` adds to the heading, touches nothing else, and turning back undoes it |
| Turtle.Push | js/renderer.worker.js:134-140 | `push` keeps the pose and puts it on top of the saved stack |
| Turtle.Pop | js/renderer.worker.js:142-150 | `pop` on an empty stack changes nothing; otherwise it restores the top pose, removes it, and (worker turtles) moves the path there |
| Turtle.PopUndoesPush | lsystem.js:65-80 | `push` then `pop` restores the pose and the stack, and on the lsystem.js turtle the whole turtle |
| Turtle.Forward | js/renderer.worker.js:115-128 | `forward` lands `length` along the heading, keeps heading and stack, appends one `lineTo` (or `moveTo` when not drawing) to the new point and updates the box with exactly that point |
| Turtle.Stroke | lsystem.js:48-59 | the lsystem.js `forward` lands `length` along the heading and strokes the segment from the old to the new position, keeping heading and stack |
| Turtle.BeginLine | renderer.worker.js:81-85 | `beginLine` opens a fresh path at the current position and adds exactly that point to the box, keeping the pose and the stack |
| Turtle.DrawnSegmentsOfOpenedPath | js/renderer.worker.js:111 | a path that opens with `moveTo` is stroked with one segment per `lineTo` |
| Dispatch.Act | js/renderer.worker.js:26-47 | one symbol of the switch never shrinks the box and never shortens the path |
| Dispatch.Interpret | lsystem.js:129-147 | interpreting a string, symbol by symbol, never shrinks the box and never shortens the path |
| Dispatch.Play | js/renderer.worker.js:26-47 | the `for ... of` loop applies the symbol switch to each character from left to right |
| Dispatch.NonCommandIgnored | lsystem.js:129-146 | any character outside an interpreter's switch, `f` included for lsystem.js and renderer.worker.js, leaves the turtle unchanged |
| Dispatch.TurnsChangeOnlyHeading | lsystem.js:134-139 | `+` and `-` change the heading by plus and minus the angle and nothing else |
| Dispatch.OnlyStepsAndPopsMove | renderer.worker.js:28-44 | only `F`, `]` and (js/renderer.worker.js) `f` can change the position |
| Dispatch.SavedStackGrows | renderer.worker.js:128-144 | a string that never pops below its start leaves the caller's saved poses in place underneath the ones it pushed |
| Dispatch.BracketRestoresPose | renderer.worker.js:128-144 | for a balanced `w`, the pose after `[w]` equals the pose before it and the saved stack is as before |
| Dispatch.InterpretKeepsTracked | renderer.worker.js:113-144 | the worker turtles keep every reached point, saved pose and path point inside a never-shrinking box |
| Dispatch.InterpretLineCount | js/renderer.worker.js:115-128 | interpreting only appends to the path, with exactly one `lineTo` per `F` |
| Dispatch.BeginLineTracked | renderer.worker.js:81-85 | after `beginLine` the box holds the start point and the whole path |
| Worklist.Child | js/renderer.worker.js:51-56 | a character with a truthy rule is pushed as its replacement with one pass fewer, any other as itself with no passes left |
| Worklist.ChildRewrite | js/renderer.worker.js:49-56 | each pushed frame stands for exactly the rewrite of its character at the parent's depth |
| Worklist.PushChildren | js/renderer.worker.js:49-57 | pushing the children in reverse order makes the stack emit the frame's rewrite before what it emitted already |
| Worklist.Expand | js/renderer.worker.js:20-59 | the worklist terminates; the depth-0 characters it interprets, in order, are the n-fold literal rewrite of the axiom, and the turtle is that string interpreted |
| Worklist.Draw | renderer.worker.js:19-59 | `draw` interprets the n-fold rewrite, its box holds the start point and everything reached, and every `F` strokes one segment |
| Worklist.Run | js/renderer.worker.js:19-60 | `run` interprets the n-fold rewrite, the axiom itself for zero iterations, and issues one `lineTo` per `F`, of which a leading one strokes nothing |
| Worklist.UnopenedPathLosesFirstStep | js/renderer.worker.js:115-128 | on a fresh empty path the run interpreter issues one `lineTo` per `F` and strokes either that many segments or one fewer, exactly one fewer when the string starts with `F` (the exact count for any string is `Worklist.FirstStepLost`) |
| Worklist.FirstStepLost | js/renderer.worker.js:19-60 | for `u + "F" + w` with no `F` in `u`, the run interpreter on a fresh path strokes one segment per `F`, less one exactly when `u` left the path empty (no `f`, no `]` on a non-empty stack) |
| Worklist.RunDropsFirstSegment | js/renderer.worker.js:173-182 | axiom `F` with `F=FF` for one pass expands to `FF`, but only one segment is stroked |
| Worklist.RunCorrected | js/renderer.worker.js:173-182 | with `beginLine` first, every `F` strokes one segment and the box holds the start point |
| Worklist.Visualize | lsystem.js:127-178 | the visualizer interprets the literal rewrite from the reset turtle and strokes one segment per `F` |
| Canvas.ResetPan | js/canvas.js:6-10 | `reset` sets no pan and zoom 1 |
| Canvas.ResetPanForgets | js/canvas.js:6-10 | `reset` forgets the previous view and is idempotent |
| Canvas.HandleError | js/canvas.js:199-208 | an error is reported with its parameters and then `clear` is posted |
| Canvas.ValidIterationsSpec | js/canvas.js:214 | the count passes exactly when it is an integer of at least one; `NaN`, fractions and infinities fail |
| Canvas.Generate | js/canvas.js:210-240 | an invalid count yields exactly the error and `clear` with the pan unchanged; otherwise the estimate is requested, then the curve is either refused the same way or posted with the pan reset when asked |
| Canvas.PostedIff | js/canvas.js:213-239 | a `generate` message goes out if and only if the count is a positive integer and the estimate is not above one million; otherwise the last effect is `clear` and the pan is unchanged |
| Canvas.EstimateOnlyForValidCounts | js/canvas.js:213-220 | the estimate is requested only after the count has passed, and for that count |
| Canvas.MaxSegmentsBoundary | js/canvas.js:220-224 | an estimate of exactly one million passes, anything above it (and `Infinity`) is refused, and a `NaN` estimate passes |
| Canvas.PostedPan | js/canvas.js:227-239 | an accepted run posts pan 0, 0 and zoom 1 when `resetPan` is set and the previous pan otherwise |
| Page.FirstMatch | js/page.js:125-128 | the entry found matches on axiom, rules and angle, and no earlier entry does; none is found exactly when no entry matches |
| Page.FindMatchingPreset | js/page.js:124-130 | a non-`custom` answer is the key of a matching preset; no match gives `custom`; otherwise it is the first match's key, or `custom` if that key is empty |
| Page.OnlyMatchedFieldsMatter | js/page.js:124-129 | iteration counts and names play no part in matching |
| Page.NaNAngleIsCustom | js/page.js:128 | an unparsable angle never matches, since `NaN === NaN` is false |

## Left out

- Trigonometry and floating point: `Math.cos`/`Math.sin` of degrees become the opaque `dir`. Coordinates are exact reals, so rounding is not modelled.
- Fit-to-canvas scaling and centring are not modelled. This covers `Turtle.draw` in js/renderer.worker.js and `endLine` in renderer.worker.js. Both are float divisions that can divide by a zero extent.
- `ruleSet.calculateLineLength` is code this model cannot see. It is a function parameter of `Canvas.Generate`. The estimate could be `NaN` or fractional, and `JsNumber.Num` covers both.
- Worker message dispatch (`self.onmessage`, `methods`), timing (`performance.now`), `Path2D`/`OffscreenCanvas` objects and `deferUntilAnimationFrame` are left out. They are I/O and scheduling; the path is a list of commands instead.
- Mouse, touch and wheel pan/zoom handlers, and the worker's `resize` and `updateView`, are left out. They are event code with float arithmetic.
- The DOM, slider and URL code of js/page.js and lsystem.js is left out, as is page.js. The preset tables in presets.js and js/presets.js are data and become a parameter.
- js/page.js passes `{axiom, rules, iterations, angle}` while js/canvas.js reads `ruleSet`; the two files come from different revisions. The gate therefore takes an opaque rule-set type.
- Worklist.Expand, Worklist.Run, Worklist.Draw: iteration counts are natural numbers. A negative, fractional or `NaN` count never becomes exactly 0 by subtracting 1, so the source keeps expanding ruled characters, one level after another, until only unruled characters remain. For example, axiom `F` with rules `F=G` and count -1 pushes `[G, -2]`, then `[G, 0]`, interprets `G` and stops. The loop runs forever only when a ruled character can reach itself again through replacements. js/canvas.js passes only integers of at least 1, but proxy.js:118-126 posts `parseInt(...)` to renderer.worker.js `draw` unchecked, so `NaN` and negative counts do reach `draw` there.
- Dispatch.Config, Worklist.Draw, Worklist.Run, Worklist.Visualize: the angle and the step length are finite reals. In the source they can be `NaN` or `undefined`:
  - js/page.js:30 reads the angle with `parseFloat`, and js/canvas.js:211-239 posts it unchecked to `run`.
  - lsystem.js:156-157 reads the angle and the length with `parseInt`.
  - proxy.js:124-129 posts no `length` at all. renderer.worker.js:158 and :168 still pass `length` on to `draw`, so `forward` (renderer.worker.js:113-115) multiplies by `undefined`.
  - Once a heading or a length is `NaN`, every later coordinate is `NaN`. The canvas ignores `lineTo` and `moveTo` with a `NaN` argument, and `Math.min`/`Math.max` (renderer.worker.js:86-91, js/renderer.worker.js:83-88) leave the box `NaN` for good.
  - On those inputs the source strokes nothing and the box tracks nothing. The model's promises of one segment per `F` and of a box holding every reached point hold only for finite angles and lengths.
  - In particular, renderer.worker.js as driven by proxy.js always draws with an `undefined` length.
- Literal.Generate: the count is an integer. The `parseInt` at lsystem.js:155 can give `NaN`; `i < NaN` is false, so the source then runs no pass, which is what a count of 0 gives here.
- Literal.Generate, Worklist.Expand: strings are sequences of Unicode scalar values. The source has one mismatch on characters outside the Basic Multilingual Plane: `for ... of` walks code points while `current[i]` in the workers indexes UTF-16 code units. This is not modelled.
- Page.FindMatchingPreset: the table order is taken as given. `Object.entries` lists integer-like keys first, and that reordering is not modelled. Keys such as `__proto__` that an object literal treats specially are not modelled either.
- Canvas.Generate: `-0` and `+0` are the same finite number. No comparison in the gate or the matcher can tell them apart.

## Findings

| source | as written | input that shows it | evidently intended | confidence | as-written member | corrected member |
|---|---|---|---|---|---|---|
| js/renderer.worker.js:19-60 | `run` starts on the fresh turtle's empty `Path2D` without a `moveTo` to the start pose, so the first `forward(1, true)` issues a `lineTo` that only opens a subpath and strokes nothing | axiom `F`, rules `F=FF`, one iteration: the string is `FF`, two `lineTo` commands, one stroked segment | open the path at the start position first, as `beginLine` does in renderer.worker.js:20, so that every `F` strokes a segment | not executed | Worklist.RunDropsFirstSegment | Worklist.RunCorrected |

=== FILE: canvas.dfy ===
/**
  The admission gate of js/canvas.js: `Canvas.generate(lSystemParams, resetPan)`
  validates the iteration count, consults the rule set's length estimate, and only
  then resets the pan state (when asked) and posts a `generate` message to the
  worker.  A rejection goes through `_handleError`, which reports an error status and
  posts `clear`.

  The observable behaviour is the sequence of effects in the order they happen; the
  estimate `calculateLineLength` is code outside this model and enters as a function.
 */
module Canvas {
  import opened JsNumber

  /** `Canvas.MAX_SEGMENTS`, one million. */
  const MaxSegments: real := 1000000.0

  /** The shared pan and zoom of the view. */
  datatype PanState = PanState(panX: real, panY: real, zoom: real)

  /** `PanState.reset()`, also what `new PanState()` starts from: no pan, zoom 1. */
  function ResetPan(p: PanState): (r: PanState)
    ensures r.panX == 0.0 && r.panY == 0.0 && r.zoom == 1.0
  {
    PanState(0.0, 0.0, 1.0)
  }

  /** The fields of `lSystemParams` that `generate` reads. */
  datatype Params<R> = Params(ruleSet: R, iterations: Num, angle: Num)

  /** The two error messages. */
  datatype ErrorReason = IterationCountInvalid | CurveTooLong(steps: Num)

  datatype Effect<R> =
    | ReportError(reason: ErrorReason, params: Params<R>)   // `onStatusMessage({status: 'error', ...})`
    | PostClear                                              // `postMessage({method: 'clear'})`
    | EstimateRequested(iterations: nat)                     // `ruleSet.calculateLineLength(iterations)`
    | PostGenerate(ruleSet: R, iterations: nat, angle: Num, pan: PanState)

  datatype Outcome<R> = Outcome(effects: seq<Effect<R>>, pan: PanState)

  /** `_handleError(message, lSystemParams)`: the error status, then `clear`. */
  function HandleError<R>(reason: ErrorReason, params: Params<R>): (r: seq<Effect<R>>)
    ensures |r| == 2 && r[0].ReportError? && r[0].reason == reason && r[0].params == params
    ensures r[1] == PostClear
  {
    [ReportError(reason, params), PostClear]
  }

  /** `iterations < 1 || !Number.isInteger(iterations)` is false. */
  predicate ValidIterations(n: Num) {
    !(Less(n, 1.0) || !IsInteger(n))
  }

  /** A whole number of passes as a JavaScript number. */
  function OfCount(k: nat): Num {
    Finite(k as real)
  }

  /** The accepted counts are exactly the integers from one up. */
  lemma ValidIterationsSpec(n: Num)
    ensures ValidIterations(n) <==> exists k: nat :: k >= 1 && n == OfCount(k)
  {
    if ValidIterations(n) {
      var k := n.v.Floor;
      assert k >= 1 && n == OfCount(k);
    }
  }

  /** The accepted count as a number of passes. */
  function Count(n: Num): (k: nat)
    requires ValidIterations(n)
    ensures k >= 1 && n == OfCount(k)
  {
    n.v.Floor
  }

  /** `lineLength > Canvas.MAX_SEGMENTS`. */
  predicate TooLong(estimate: Num) {
    Greater(estimate, MaxSegments)
  }

  /** `generate(lSystemParams, resetPan)`. */
  function Generate<R>(params: Params<R>, resetPan: bool, pan: PanState, lineLength: (R, nat) -> Num)
    : (r: Outcome<R>)
    ensures !ValidIterations(params.iterations) ==> r == Outcome(HandleError(IterationCountInvalid, params), pan)
    ensures ValidIterations(params.iterations) ==>
      var k := Count(params.iterations);
      var estimate := lineLength(params.ruleSet, k);
      && |r.effects| >= 2 && r.effects[0] == EstimateRequested(k)
      && (TooLong(estimate) ==> r == Outcome([EstimateRequested(k)] + HandleError(CurveTooLong(estimate), params), pan))
      && (!TooLong(estimate) ==>
            && r.pan == (if resetPan then ResetPan(pan) else pan)
            && r.effects == [EstimateRequested(k), PostGenerate(params.ruleSet, k, params.angle, r.pan)])
  {
    if !ValidIterations(params.iterations) then
      Outcome(HandleError(IterationCountInvalid, params), pan)
    else
      var k := Count(params.iterations);
      var estimate := lineLength(params.ruleSet, k);
      if TooLong(estimate) then
        Outcome([EstimateRequested(k)] + HandleError(CurveTooLong(estimate), params), pan)
      else
        var pan' := if resetPan then ResetPan(pan) else pan;
        Outcome([EstimateRequested(k), PostGenerate(params.ruleSet, k, params.angle, pan')], pan')
  }

  /** Whether a run posted a `generate` message. */
  predicate Posted<R>(effects: seq<Effect<R>>) {
    exists i :: 0 <= i < |effects| && effects[i].PostGenerate?
  }

  /** A `generate` message goes out exactly when the count is a positive integer and the
      estimate is at most `MAX_SEGMENTS`; rejections end with `clear` instead. */
  lemma PostedIff<R>(params: Params<R>, resetPan: bool, pan: PanState, lineLength: (R, nat) -> Num)
    ensures var r := Generate(params, resetPan, pan, lineLength);
      Posted(r.effects) <==>
        exists k: nat :: k >= 1 && params.iterations == OfCount(k)
                         && !TooLong(lineLength(params.ruleSet, k))
    ensures var r := Generate(params, resetPan, pan, lineLength);
      !Posted(r.effects) ==> r.effects[|r.effects| - 1] == PostClear && r.pan == pan
  {
    var r := Generate(params, resetPan, pan, lineLength);
    ValidIterationsSpec(params.iterations);
    if ValidIterations(params.iterations) {
      var k := Count(params.iterations);
      if !TooLong(lineLength(params.ruleSet, k)) {
        assert r.effects[1].PostGenerate?;
      } else {
        assert forall i :: 0 <= i < |r.effects| ==> !r.effects[i].PostGenerate?;
      }
    } else {
      assert forall i :: 0 <= i < |r.effects| ==> !r.effects[i].PostGenerate?;
    }
  }

  /** The estimate is only consulted once the count has passed its check. */
  lemma EstimateOnlyForValidCounts<R>(params: Params<R>, resetPan: bool, pan: PanState,
                                      lineLength: (R, nat) -> Num, i: nat)
    requires i < |Generate(params, resetPan, pan, lineLength).effects|
    requires Generate(params, resetPan, pan, lineLength).effects[i].EstimateRequested?
    ensures ValidIterations(params.iterations)
    ensures Generate(params, resetPan, pan, lineLength).effects[i].iterations == Count(params.iterations)
  {
  }

  /** The limit is inclusive: an estimate of exactly `MAX_SEGMENTS` passes, anything
      above it (including `Infinity`) is turned away, and a `NaN` estimate, which
      compares false, passes. */
  lemma MaxSegmentsBoundary(steps: real)
    ensures !TooLong(Finite(MaxSegments))
    ensures steps > MaxSegments ==> TooLong(Finite(steps))
    ensures steps <= MaxSegments ==> !TooLong(Finite(steps))
    ensures TooLong(PlusInfinity) && !TooLong(NaN)
  {
  }

  /** After an accepted run the pan is the default when `resetPan` is set and
      untouched otherwise, and the message carries that pan. */
  lemma PostedPan<R>(params: Params<R>, resetPan: bool, pan: PanState, lineLength: (R, nat) -> Num)
    requires Posted(Generate(params, resetPan, pan, lineLength).effects)
    ensures var r := Generate(params, resetPan, pan, lineLength);
      && r.effects[|r.effects| - 1].PostGenerate?
      && r.effects[|r.effects| - 1].pan == r.pan
      && (resetPan ==> r.pan == PanState(0.0, 0.0, 1.0))
      && (!resetPan ==> r.pan == pan)
  {
    var r := Generate(params, resetPan, pan, lineLength);
    PostedIff(params, resetPan, pan, lineLength);
  }

  /** `reset` forgets the previous view entirely and is idempotent. */
  lemma ResetPanForgets(p: PanState, q: PanState)
    ensures ResetPan(p) == ResetPan(q)
    ensures ResetPan(ResetPan(p)) == ResetPan(p)
  {
  }
}

=== FILE: dispatch.dfy ===
/**
  Symbol dispatch: how each file's interpreter turns one character of the expanded
  string into a turtle action, and the fold of that over a string.

  - `Visualizer` is `LSystemVisualizer._drawLSystem` in lsystem.js: `F` strokes a
    segment, `+`/`-` turn, `[`/`]` push and pop (pop without touching a path).
  - `RunWorker` is the depth-0 branch of `LSystem.run` in js/renderer.worker.js: `F`
    draws a unit step, `f` moves a unit step without drawing, then `+ - [ ]`.
  - `DrawWorker` is the depth-0 branch of `LSystem.draw` in renderer.worker.js: only
    `F` moves (by `length`), then `+ - [ ]`.

  Every other character is ignored.
 */
module Dispatch {
  import opened Turtle
  import opened Seqs

  datatype Dialect = Visualizer | RunWorker | DrawWorker

  /** The turn angle, the step length and the opaque direction of a heading. */
  datatype Config = Config(angle: real, length: real, dir: real -> Point)

  /** The `switch (char)` of each interpreter. */
  function Act(d: Dialect, cfg: Config, t: Turtle, c: char): (r: Turtle)
    ensures Covers(r.bounds, t.bounds)
    ensures |r.path| >= |t.path|
  {
    match c
    case 'F' => if d == Visualizer then Stroke(t, cfg.length, cfg.dir) else Forward(t, cfg.length, true, cfg.dir)
    case 'f' => if d == RunWorker then Forward(t, cfg.length, false, cfg.dir) else t
    case '+' => Rotate(t, cfg.angle)
    case '-' => Rotate(t, -cfg.angle)
    case '[' => Push(t)
    case ']' => Pop(t, d != Visualizer)
    case _ => t
  }

  /** `for (let char of current) switch (char) ...`: the characters left to right. */
  function Interpret(d: Dialect, cfg: Config, t: Turtle, s: string): (r: Turtle)
    ensures Covers(r.bounds, t.bounds)
    ensures |r.path| >= |t.path|
    decreases |s|
  {
    if s == [] then t
    else
      var t1 := Act(d, cfg, t, s[0]);
      CoversTransitive(Interpret(d, cfg, t1, s[1..]).bounds, t1.bounds, t.bounds);
      Interpret(d, cfg, t1, s[1..])
  }

  /** Interpreting a concatenation is interpreting the parts one after the other. */
  lemma {:induction false} InterpretConcat(d: Dialect, cfg: Config, t: Turtle, a: string, b: string)
    ensures Interpret(d, cfg, t, a + b) == Interpret(d, cfg, Interpret(d, cfg, t, a), b)
    decreases |a|
  {
    if a == [] {
      assert a + b == b;
    } else {
      assert (a + b)[0] == a[0];
      assert (a + b)[1..] == a[1..] + b;
      InterpretConcat(d, cfg, Act(d, cfg, t, a[0]), a[1..], b);
    }
  }

  /** Appending one character appends one action. */
  lemma InterpretSnoc(d: Dialect, cfg: Config, t: Turtle, s: string, c: char)
    ensures Interpret(d, cfg, t, s + [c]) == Act(d, cfg, Interpret(d, cfg, t, s), c)
  {
    InterpretConcat(d, cfg, t, s, [c]);
  }

  /** The `for (let char of ...)` loop itself: acts on each character in turn. */
  method Play(d: Dialect, cfg: Config, t0: Turtle, s: string) returns (t: Turtle)
    ensures t == Interpret(d, cfg, t0, s)
  {
    t := t0;
    var j := 0;
    while j < |s|
      invariant 0 <= j <= |s|
      invariant t == Interpret(d, cfg, t0, s[..j])
    {
      InterpretSnoc(d, cfg, t0, s[..j], s[j]);
      PrefixSnoc(s, j);
      t := Act(d, cfg, t, s[j]);
      j := j + 1;
    }
    assert s[..|s|] == s;
  }

  /** The characters a dialect reacts to. */
  predicate IsCommand(d: Dialect, c: char) {
    c == 'F' || c == '+' || c == '-' || c == '[' || c == ']' || (d == RunWorker && c == 'f')
  }

  /** Any character outside a dialect's switch leaves the turtle exactly as it was;
      in particular `f` is ignored by lsystem.js and renderer.worker.js. */
  lemma NonCommandIgnored(d: Dialect, cfg: Config, t: Turtle, c: char)
    requires !IsCommand(d, c)
    ensures Act(d, cfg, t, c) == t
  {
  }

  /** `+` and `-` turn by plus and minus the configured angle and change nothing else. */
  lemma TurnsChangeOnlyHeading(d: Dialect, cfg: Config, t: Turtle)
    ensures Act(d, cfg, t, '+') == t.(angle := t.angle + cfg.angle)
    ensures Act(d, cfg, t, '-') == t.(angle := t.angle - cfg.angle)
  {
  }

  /** Only `F` (and `f` in js/renderer.worker.js) and `]` can move the turtle. */
  lemma OnlyStepsAndPopsMove(d: Dialect, cfg: Config, t: Turtle, c: char)
    requires c != 'F' && c != ']' && !(d == RunWorker && c == 'f')
    ensures Act(d, cfg, t, c).x == t.x && Act(d, cfg, t, c).y == t.y
  {
  }

  /** Nesting depth change of one character. */
  function Delta(c: char): int {
    if c == '[' then 1 else if c == ']' then -1 else 0
  }

  /** Pushes minus pops over a string. */
  function Net(s: string): int
    decreases |s|
  {
    if s == [] then 0 else Net(s[..|s| - 1]) + Delta(s[|s| - 1])
  }

  /** No prefix pops more than it pushed. */
  predicate NeverBelow(s: string) {
    forall k :: 0 <= k <= |s| ==> Net(s[..k]) >= 0
  }

  /** Every `[` has its matching `]`. */
  predicate Balanced(s: string) {
    NeverBelow(s) && Net(s) == 0
  }

  /** Non-bracket characters never touch the saved-pose stack. */
  lemma ActKeepsSaved(d: Dialect, cfg: Config, t: Turtle, c: char)
    requires c != '[' && c != ']'
    ensures Act(d, cfg, t, c).saved == t.saved
  {
  }

  /** A string that never pops below its start leaves the caller's saved poses
      untouched underneath the ones it pushed. */
  lemma {:induction false} SavedStackGrows(d: Dialect, cfg: Config, t: Turtle, s: string)
    requires NeverBelow(s)
    ensures Net(s) >= 0
    ensures |Interpret(d, cfg, t, s).saved| == |t.saved| + Net(s)
    ensures Interpret(d, cfg, t, s).saved[..|t.saved|] == t.saved
    decreases |s|
  {
    assert s[..|s|] == s;
    if s == [] {
      assert t.saved[..|t.saved|] == t.saved;
    } else {
      var s' := s[..|s| - 1];
      var c := s[|s| - 1];
      assert s == s' + [c];
      assert NeverBelow(s') by {
        forall k | 0 <= k <= |s'| ensures Net(s'[..k]) >= 0 {
          assert s'[..k] == s[..k];
        }
      }
      SavedStackGrows(d, cfg, t, s');
      InterpretSnoc(d, cfg, t, s', c);
      var u := Interpret(d, cfg, t, s');
      assert s[..|s|] == s;
      if c == '[' {
        assert (u.saved + [PoseOf(u)])[..|t.saved|] == u.saved[..|t.saved|];
      } else if c == ']' {
        assert Net(s) == Net(s') - 1;
        assert u.saved[..|u.saved| - 1][..|t.saved|] == u.saved[..|t.saved|];
      } else {
        ActKeepsSaved(d, cfg, u, c);
      }
    }
  }

  /** For a balanced `[ w ]`, the pose after the `]` is the pose before the `[`, and
      the saved-pose stack is as it was. */
  lemma BracketRestoresPose(d: Dialect, cfg: Config, t: Turtle, w: string)
    requires Balanced(w)
    ensures PoseOf(Interpret(d, cfg, t, "[" + w + "]")) == PoseOf(t)
    ensures Interpret(d, cfg, t, "[" + w + "]").saved == t.saved
  {
    var t1 := Push(t);
    assert Interpret(d, cfg, t, "[") == t1;
    InterpretConcat(d, cfg, t, "[", w);
    var u := Interpret(d, cfg, t1, w);
    SavedStackGrows(d, cfg, t1, w);
    assert u.saved == t.saved + [PoseOf(t)];
    InterpretSnoc(d, cfg, t, "[" + w, ']');
    assert ("[" + w) + [']'] == "[" + w + "]";
    assert u.saved[..|u.saved| - 1] == t.saved;
  }

  /** The bounding box holds the turtle, every saved pose and every path point. */
  predicate Tracked(t: Turtle) {
    && Contains(t.bounds, t.x, t.y)
    && (forall i :: 0 <= i < |t.saved| ==> Contains(t.bounds, t.saved[i].x, t.saved[i].y))
    && (forall i :: 0 <= i < |t.path| ==> Contains(t.bounds, t.path[i].to.x, t.path[i].to.y))
  }

  /** The worker turtles keep the box around everything they reach, and never shrink it. */
  lemma ActKeepsTracked(d: Dialect, cfg: Config, t: Turtle, c: char)
    requires d != Visualizer && Tracked(t)
    ensures Tracked(Act(d, cfg, t, c))
    ensures Covers(Act(d, cfg, t, c).bounds, t.bounds)
  {
    var r := Act(d, cfg, t, c);
    if c == 'F' || (c == 'f' && d == RunWorker) {
      forall i | 0 <= i < |r.path| ensures Contains(r.bounds, r.path[i].to.x, r.path[i].to.y) {
        if i < |t.path| {
          assert r.path[i] == r.path[..|t.path|][i];
        }
      }
    } else if c == '[' {
      assert forall i :: 0 <= i < |t.saved| ==> r.saved[i] == t.saved[i];
    } else if c == ']' && t.saved != [] {
      assert PoseOf(r) == t.saved[|t.saved| - 1];
      forall i | 0 <= i < |r.saved| ensures Contains(r.bounds, r.saved[i].x, r.saved[i].y) {
        assert r.saved[i] == t.saved[i];
      }
      forall i | 0 <= i < |r.path| ensures Contains(r.bounds, r.path[i].to.x, r.path[i].to.y) {
        if i < |t.path| {
          assert r.path[i] == t.path[i];
        }
      }
    }
  }

  lemma {:induction false} InterpretKeepsTracked(d: Dialect, cfg: Config, t: Turtle, s: string)
    requires d != Visualizer && Tracked(t)
    ensures Tracked(Interpret(d, cfg, t, s))
    ensures Covers(Interpret(d, cfg, t, s).bounds, t.bounds)
    decreases |s|
  {
    if s != [] {
      var t1 := Act(d, cfg, t, s[0]);
      ActKeepsTracked(d, cfg, t, s[0]);
      InterpretKeepsTracked(d, cfg, t1, s[1..]);
      CoversTransitive(Interpret(d, cfg, t, s).bounds, t1.bounds, t.bounds);
    }
  }

  /** How often `c` occurs in `s`. */
  function Occurrences(s: string, c: char): nat
    decreases |s|
  {
    if s == [] then 0 else (if s[0] == c then 1 else 0) + Occurrences(s[1..], c)
  }

  /** One action appends at most a `moveTo`/`lineTo` pair to the path, with a `lineTo`
      exactly for `F`. */
  lemma ActLineCount(d: Dialect, cfg: Config, t: Turtle, c: char)
    ensures |Act(d, cfg, t, c).path| >= |t.path|
    ensures Act(d, cfg, t, c).path[..|t.path|] == t.path
    ensures LineCount(Act(d, cfg, t, c).path) == LineCount(t.path) + (if c == 'F' then 1 else 0)
  {
    var t1 := Act(d, cfg, t, c);
    var added := t1.path[|t.path|..];
    if c == 'F' && d == Visualizer {
      assert added == [MoveTo(Point(t.x, t.y)), LineTo(Point(t1.x, t1.y))];
      assert added[1..] == [LineTo(Point(t1.x, t1.y))] && added[1..][1..] == [];
      assert LineCount(added[1..]) == 1;
      assert LineCount(added) == 1;
    } else if c == 'F' || (c == 'f' && d == RunWorker) || (c == ']' && t.saved != [] && d != Visualizer) {
      assert added == [t1.path[|t.path|]];
      assert added[1..] == [];
      assert added[0].LineTo? <==> c == 'F';
      assert LineCount(added) == (if c == 'F' then 1 else 0);
    } else {
      assert added == [];
    }
    assert t1.path == t.path + added;
    LineCountConcat(t.path, added);
  }

  /** Every interpreter only appends to the path, and issues one `lineTo` per `F`. */
  lemma {:induction false} InterpretLineCount(d: Dialect, cfg: Config, t: Turtle, s: string)
    ensures |Interpret(d, cfg, t, s).path| >= |t.path|
    ensures Interpret(d, cfg, t, s).path[..|t.path|] == t.path
    ensures LineCount(Interpret(d, cfg, t, s).path) == LineCount(t.path) + Occurrences(s, 'F')
    decreases |s|
  {
    if s == [] {
      assert t.path[..|t.path|] == t.path;
    } else {
      var t1 := Act(d, cfg, t, s[0]);
      ActLineCount(d, cfg, t, s[0]);
      InterpretLineCount(d, cfg, t1, s[1..]);
      var r := Interpret(d, cfg, t, s);
      assert r.path[..|t.path|] == r.path[..|t1.path|][..|t.path|];
    }
  }

  /** `beginLine` on a turtle with nothing saved puts everything it holds in the box. */
  lemma BeginLineTracked(t: Turtle)
    requires t.saved == []
    ensures Tracked(BeginLine(t))
  {
    var r := BeginLine(t);
    forall i | 0 <= i < |r.path| ensures Contains(r.bounds, r.path[i].to.x, r.path[i].to.y) {
      assert r.path[i] == MoveTo(Point(t.x, t.y));
    }
  }
}

=== FILE: js_number.dfy ===
/**
  The JavaScript numbers that reach the page's validators: `parseInt`/`parseFloat`
  results and the opaque length estimate.  Finite values are reals (`-0` and `+0`
  coincide, as they do for `<`, `>` and `===`); the infinities and `NaN` are kept
  apart because every comparison with `NaN` is false.
 */
module JsNumber {

  datatype Num = Finite(v: real) | PlusInfinity | MinusInfinity | NaN

  /** `a < b` for a finite right-hand side. */
  predicate Less(a: Num, b: real) {
    match a
    case Finite(v) => v < b
    case PlusInfinity => false
    case MinusInfinity => true
    case NaN => false
  }

  /** `a > b` for a finite right-hand side. */
  predicate Greater(a: Num, b: real) {
    match a
    case Finite(v) => v > b
    case PlusInfinity => true
    case MinusInfinity => false
    case NaN => false
  }

  /** `Number.isInteger(a)`: finite with no fractional part. */
  predicate IsInteger(a: Num) {
    a.Finite? && a.v == a.v.Floor as real
  }

  /** `a === b`: `NaN` equals nothing, not even itself. */
  predicate StrictEquals(a: Num, b: Num) {
    a != NaN && a == b
  }
}

=== FILE: literal.dfy ===
/**
  Literal rewriting, the reference semantics of an L-system (`LSystem.generate` in
  lsystem.js): each pass replaces every character `c` of the current string by
  `rules[c] || c`, and `generate(n)` runs `n` passes starting from the axiom.
  Lookups are per single character, so a rule whose key is longer than one character
  is never applied, and a rule whose stored value is empty is falsy and behaves as if
  it were absent.
 */
module Literal {
  import opened Wrappers
  import opened RuleText
  import Seqs

  /** `this._rules[char]` read as a truthiness test. */
  function Lookup(rules: Rules, c: char): Option<string> {
    if [c] in rules && rules[[c]] != [] then Some(rules[[c]]) else None
  }

  /** `this._rules[char] || char`: the rule for `c` when it is present and non-empty,
      otherwise `c` itself; so the image is never empty. */
  function Image(rules: Rules, c: char): (r: string)
    ensures r != []
    ensures [c] in rules && rules[[c]] != [] ==> r == rules[[c]]
    ensures !([c] in rules && rules[[c]] != []) ==> r == [c]
  {
    Lookup(rules, c).GetOr([c])
  }

  /** One pass of `generate`'s loop body.  Since a truthy replacement is never empty,
      a pass never shortens the string. */
  function Step(rules: Rules, s: string): (r: string)
    ensures |r| >= |s|
    ensures r == [] <==> s == []
    decreases |s|
  {
    if s == [] then [] else Image(rules, s[0]) + Step(rules, s[1..])
  }

  /** `n` passes from `s`; a count of zero or less leaves `s` as it is, as the
      `for (let i = 0; i < iterations; i++)` loop then runs no pass. */
  function Rewrite(rules: Rules, s: string, n: int): (r: string)
    ensures |r| >= |s|
    ensures r == [] <==> s == []
    decreases n
  {
    if n <= 0 then s else Step(rules, Rewrite(rules, s, n - 1))
  }

  /** A pass distributes over concatenation: characters are rewritten independently. */
  lemma {:induction false} StepConcat(rules: Rules, a: string, b: string)
    ensures Step(rules, a + b) == Step(rules, a) + Step(rules, b)
    decreases |a|
  {
    if a != [] {
      Seqs.TailConcat(a, b);
      StepConcat(rules, a[1..], b);
      Seqs.ConcatAssoc(Image(rules, a[0]), Step(rules, a[1..]), Step(rules, b));
    } else {
      assert a + b == b;
    }
  }

  /** The `n + 1`-fold rewrite can take its first pass up front as well as last. */
  lemma {:induction false} RewriteShift(rules: Rules, s: string, n: nat)
    ensures Rewrite(rules, s, n + 1) == Rewrite(rules, Step(rules, s), n)
    decreases n
  {
    if n > 0 {
      RewriteShift(rules, s, n - 1);
    }
  }

  /** Rewriting distributes over concatenation for any number of passes. */
  lemma {:induction false} RewriteConcat(rules: Rules, a: string, b: string, n: int)
    ensures Rewrite(rules, a + b, n) == Rewrite(rules, a, n) + Rewrite(rules, b, n)
    decreases n
  {
    if n > 0 {
      RewriteConcat(rules, a, b, n - 1);
      StepConcat(rules, Rewrite(rules, a, n - 1), Rewrite(rules, b, n - 1));
    }
  }

  /** Rewriting `m` times and then `n` times is rewriting `m + n` times. */
  lemma {:induction false} RewriteCompose(rules: Rules, s: string, m: nat, n: nat)
    ensures Rewrite(rules, Rewrite(rules, s, m), n) == Rewrite(rules, s, m + n)
    decreases n
  {
    if n > 0 {
      RewriteCompose(rules, s, m, n - 1);
    }
  }

  /** A character without a truthy rule is a fixed point of every number of passes. */
  lemma {:induction false} RewriteUnruled(rules: Rules, c: char, n: int)
    requires Lookup(rules, c) == None
    ensures Rewrite(rules, [c], n) == [c]
    decreases n
  {
    if n > 0 {
      RewriteUnruled(rules, c, n - 1);
      assert Step(rules, [c]) == [c] + Step(rules, []);
    }
  }

  /** A character with a truthy rule expands, `n` passes later, into the `n - 1`-fold
      rewrite of its replacement. */
  lemma RewriteRuled(rules: Rules, c: char, n: nat)
    requires Lookup(rules, c).Some?
    ensures Rewrite(rules, [c], n + 1) == Rewrite(rules, Lookup(rules, c).value, n)
  {
    RewriteShift(rules, [c], n);
    assert Step(rules, [c]) == Lookup(rules, c).value + Step(rules, []);
  }

  /** The empty string stays empty. */
  lemma {:induction false} RewriteEmpty(rules: Rules, n: int)
    ensures Rewrite(rules, [], n) == []
    decreases n
  {
    if n > 0 {
      RewriteEmpty(rules, n - 1);
    }
  }

  /** With no rules at all, every number of passes returns the axiom. */
  lemma {:induction false} RewriteWithoutRules(s: string, n: int)
    ensures Rewrite(map[], s, n) == s
    decreases |s|
  {
    if s != [] {
      RewriteWithoutRules(s[1..], n);
      RewriteUnruled(map[], s[0], n);
      RewriteConcat(map[], [s[0]], s[1..], n);
      assert s == [s[0]] + s[1..];
    } else {
      RewriteEmpty(map[], n);
    }
  }

  /** Two rule maps that answer every single-character lookup alike rewrite alike. */
  lemma {:induction false} SameLookupsSameRewrite(r1: Rules, r2: Rules, s: string, n: int)
    requires forall c :: Lookup(r1, c) == Lookup(r2, c)
    ensures Rewrite(r1, s, n) == Rewrite(r2, s, n)
    decreases n
  {
    if n > 0 {
      SameLookupsSameRewrite(r1, r2, s, n - 1);
      SameLookupsSameStep(r1, r2, Rewrite(r1, s, n - 1));
    }
  }

  lemma {:induction false} SameLookupsSameStep(r1: Rules, r2: Rules, s: string)
    requires forall c :: Lookup(r1, c) == Lookup(r2, c)
    ensures Step(r1, s) == Step(r2, s)
    decreases |s|
  {
    if s != [] {
      assert Lookup(r1, s[0]) == Lookup(r2, s[0]);
      SameLookupsSameStep(r1, r2, s[1..]);
    }
  }

  /** A rule whose key is not a single character (`F1=...`) is never applied. */
  lemma MultiCharKeyIgnored(rules: Rules, k: string, v: string, s: string, n: int)
    requires |k| != 1
    ensures Rewrite(rules[k := v], s, n) == Rewrite(rules, s, n)
  {
    forall c ensures Lookup(rules[k := v], c) == Lookup(rules, c) {
      assert [c] != k;
    }
    SameLookupsSameRewrite(rules[k := v], rules, s, n);
  }

  /** A rule whose stored value is empty behaves exactly as if it were absent. */
  lemma EmptyValueIsAbsent(rules: Rules, k: string, s: string, n: int)
    ensures Rewrite(rules[k := []], s, n) == Rewrite(rules - {k}, s, n)
  {
    SameLookupsSameRewrite(rules[k := []], rules - {k}, s, n);
  }

  /** The `LSystem` class of lsystem.js: its axiom, parsed rules and the `_current`
      string that `generate` overwrites. */
  datatype LSystem = LSystem(axiom: string, rules: Rules, current: string)

  /** `new LSystem(axiom, rules)`. */
  function NewLSystem(axiom: string, rulesText: string): LSystem {
    LSystem(axiom, ParseRules(rulesText), axiom)
  }

  /** Growing the prefix by one character grows its pass by that character's image. */
  lemma StepSnoc(rules: Rules, s: string, j: nat)
    requires j < |s|
    ensures Step(rules, s[..j + 1]) == Step(rules, s[..j]) + Image(rules, s[j])
  {
    Seqs.PrefixSnoc(s, j);
    StepConcat(rules, s[..j], [s[j]]);
    assert Step(rules, [s[j]]) == Image(rules, s[j]) + Step(rules, []);
  }

  /** One pass of `generate`'s inner loop over `current`. */
  method Pass(rules: Rules, current: string) returns (next: string)
    ensures next == Step(rules, current)
  {
    next := "";
    var j := 0;
    while j < |current|
      invariant 0 <= j <= |current|
      invariant next == Step(rules, current[..j])
    {
      StepSnoc(rules, current, j);
      next := next + Image(rules, current[j]);
      j := j + 1;
    }
    assert current[..|current|] == current;
  }

  /** `generate(iterations)`: resets `_current` to the axiom, then rewrites it
      `iterations` times with an explicit loop, one character at a time.  The result
      depends on the axiom, the rules and the count only, so repeated calls agree. */
  method Generate(sys: LSystem, iterations: int) returns (next: LSystem, result: string)
    ensures result == Rewrite(sys.rules, sys.axiom, iterations)
    ensures iterations <= 0 ==> result == sys.axiom
    ensures next == sys.(current := result)
  {
    var current := sys.axiom;
    var i := 0;
    while i < iterations
      invariant 0 <= i
      invariant i <= iterations || i == 0
      invariant current == Rewrite(sys.rules, sys.axiom, i)
    {
      current := Pass(sys.rules, current);
      i := i + 1;
    }
    result := current;
    next := sys.(current := result);
  }
}

=== FILE: page.dfy ===
/**
  `PageHandler._findMatchingPreset(axiom, rules, angle)` of js/page.js: the key of
  the first preset, in `Object.entries` order, whose axiom, rules and angle equal the
  inputs under `===`, or `'custom'` when there is none (and, through `|| 'custom'`,
  also when the matching key is the empty string).
 */
module Page {
  import opened Wrappers
  import opened JsNumber

  datatype Preset = Preset(name: string, axiom: string, rules: string, iterations: Num, angle: Num)

  /** The preset table as `Object.entries` lists it: key and preset, in order. */
  type Table = seq<(string, Preset)>

  const Custom: string := "custom"

  /** The callback given to `find`. */
  predicate Matches(p: Preset, axiom: string, rules: string, angle: Num) {
    p.axiom == axiom && p.rules == rules && StrictEquals(p.angle, angle)
  }

  /** `Object.entries(...).find(...)`, as the index of the entry found. */
  function FirstMatch(table: Table, axiom: string, rules: string, angle: Num): (r: Option<nat>)
    ensures r.Some? ==> r.value < |table| && Matches(table[r.value].1, axiom, rules, angle)
    ensures r.Some? ==> forall j :: 0 <= j < r.value ==> !Matches(table[j].1, axiom, rules, angle)
    ensures r.None? <==> forall j :: 0 <= j < |table| ==> !Matches(table[j].1, axiom, rules, angle)
    decreases |table|
  {
    if table == [] then None
    else if Matches(table[0].1, axiom, rules, angle) then Some(0)
    else match FirstMatch(table[1..], axiom, rules, angle)
      case None => None
      case Some(i) => Some(i + 1)
  }

  /** `find(...)?.[0] || 'custom'`. */
  function FindMatchingPreset(table: Table, axiom: string, rules: string, angle: Num): (r: string)
    ensures r != Custom ==> exists i :: 0 <= i < |table| && table[i].0 == r && Matches(table[i].1, axiom, rules, angle)
    ensures (forall j :: 0 <= j < |table| ==> !Matches(table[j].1, axiom, rules, angle)) ==> r == Custom
    ensures FirstMatch(table, axiom, rules, angle).Some? ==>
              var key := table[FirstMatch(table, axiom, rules, angle).value].0;
              r == (if key == [] then Custom else key)
  {
    match FirstMatch(table, axiom, rules, angle)
    case None => Custom
    case Some(i) => if table[i].0 == [] then Custom else table[i].0
  }

  /** The matching fields of two entry lists agree position by position. */
  predicate SameMatchFields(t1: Table, t2: Table) {
    && |t1| == |t2|
    && forall i :: 0 <= i < |t1| ==> t1[i].0 == t2[i].0 && t1[i].1.axiom == t2[i].1.axiom
                                     && t1[i].1.rules == t2[i].1.rules && t1[i].1.angle == t2[i].1.angle
  }

  lemma {:induction false} SameFieldsSameFirstMatch(t1: Table, t2: Table, axiom: string, rules: string, angle: Num)
    requires SameMatchFields(t1, t2)
    ensures FirstMatch(t1, axiom, rules, angle) == FirstMatch(t2, axiom, rules, angle)
    decreases |t1|
  {
    if t1 != [] {
      assert Matches(t1[0].1, axiom, rules, angle) == Matches(t2[0].1, axiom, rules, angle);
      assert SameMatchFields(t1[1..], t2[1..]) by {
        forall i | 0 <= i < |t1| - 1
          ensures t1[1..][i].0 == t2[1..][i].0 && t1[1..][i].1.axiom == t2[1..][i].1.axiom
                  && t1[1..][i].1.rules == t2[1..][i].1.rules && t1[1..][i].1.angle == t2[1..][i].1.angle
        {
          assert t1[1..][i] == t1[i + 1] && t2[1..][i] == t2[i + 1];
        }
      }
      SameFieldsSameFirstMatch(t1[1..], t2[1..], axiom, rules, angle);
    }
  }

  /** Two tables that agree on keys, axioms, rules and angles give the same answer:
      neither the iteration counts nor the display names play any part. */
  lemma OnlyMatchedFieldsMatter(t1: Table, t2: Table, axiom: string, rules: string, angle: Num)
    requires SameMatchFields(t1, t2)
    ensures FindMatchingPreset(t1, axiom, rules, angle) == FindMatchingPreset(t2, axiom, rules, angle)
  {
    SameFieldsSameFirstMatch(t1, t2, axiom, rules, angle);
  }

  /** A `NaN` angle (an unparsable angle field) never matches a preset. */
  lemma NaNAngleIsCustom(table: Table, axiom: string, rules: string)
    ensures FirstMatch(table, axiom, rules, NaN) == None
    ensures FindMatchingPreset(table, axiom, rules, NaN) == Custom
  {
  }
}

=== FILE: rule_text.dfy ===
/**
  Rule-text parsing: the `_parseRules` method that every L-system class of the
  repository carries (js/renderer.worker.js, lsystem.js and renderer.worker.js hold
  three identical copies).  The rules text is split on `;` or newline, blank pieces
  are dropped, each piece is split on `=`, and the piece defines a rule only when the
  text before the first `=` and the text between the first and second `=` are both
  non-empty.  Key and value are then stored trimmed; a later key overwrites an
  earlier one.  The rules object is a plain `{}`, so an assignment to the key
  `__proto__` reaches the inherited `Object.prototype.__proto__` setter, which
  ignores a string value: that key is never stored.
 */
module RuleText {
  import opened Wrappers
  import Seqs

  /** Production rules as the JavaScript object literal holds them. */
  type Rules = map<string, string>

  /** The code points JavaScript's `String.prototype.trim` removes:
      WhiteSpace and LineTerminator. */
  predicate IsWhitespace(c: char) {
    || c == '\t' || c == '\n' || c == '\U{000B}' || c == '\U{000C}' || c == '\r'
    || c == ' ' || c == '\U{00A0}' || c == '\U{1680}'
    || ('\U{2000}' <= c <= '\U{200A}')
    || c == '\U{2028}' || c == '\U{2029}' || c == '\U{202F}' || c == '\U{205F}'
    || c == '\U{3000}' || c == '\U{FEFF}'
  }

  predicate AllWhitespace(s: string) {
    forall k :: 0 <= k < |s| ==> IsWhitespace(s[k])
  }

  /** Drops leading whitespace: what remains is a suffix that does not start with whitespace. */
  function TrimStart(s: string): (r: string)
    ensures |r| <= |s| && r == s[|s| - |r|..]
    ensures AllWhitespace(s[..|s| - |r|])
    ensures r == [] || !IsWhitespace(r[0])
    decreases |s|
  {
    if s != [] && IsWhitespace(s[0]) then
      var r := TrimStart(s[1..]);
      TrimStartStep(s, r);
      r
    else s
  }

  /** One more leading whitespace character in front of a trimmed suffix. */
  lemma TrimStartStep(s: string, r: string)
    requires s != [] && IsWhitespace(s[0]) && |r| <= |s| - 1
    requires r == s[1..][|s| - 1 - |r|..] && AllWhitespace(s[1..][..|s| - 1 - |r|])
    ensures r == s[|s| - |r|..] && AllWhitespace(s[..|s| - |r|])
  {
    var n := |s| - |r|;
    forall k | 0 <= k < n ensures IsWhitespace(s[..n][k]) {
      if k > 0 {
        assert s[..n][k] == s[1..][..n - 1][k - 1];
      }
    }
  }

  /** Drops trailing whitespace: what remains is a prefix that does not end with whitespace. */
  function TrimEnd(s: string): (r: string)
    ensures |r| <= |s| && r == s[..|r|]
    ensures AllWhitespace(s[|r|..])
    ensures r == [] || !IsWhitespace(r[|r| - 1])
    decreases |s|
  {
    if s != [] && IsWhitespace(s[|s| - 1]) then
      var r := TrimEnd(s[..|s| - 1]);
      assert s[|r|..] == s[..|s| - 1][|r|..] + [s[|s| - 1]];
      r
    else s
  }

  /** Neither end is whitespace. */
  predicate Trimmed(s: string) {
    s == [] || (!IsWhitespace(s[0]) && !IsWhitespace(s[|s| - 1]))
  }

  /** `String.prototype.trim`: neither end of the result is whitespace. */
  function Trim(s: string): (r: string)
    ensures |r| <= |s|
    ensures Trimmed(r)
  {
    TrimEnd(TrimStart(s))
  }

  /** What `trim` removes: the result is the slice of `s` between a leading and a
      trailing run of whitespace. */
  lemma TrimSlice(s: string) returns (i: int)
    ensures 0 <= i <= |s| - |Trim(s)| && Trim(s) == s[i..i + |Trim(s)|]
    ensures forall k :: 0 <= k < i ==> IsWhitespace(s[k])
    ensures forall k :: i + |Trim(s)| <= k < |s| ==> IsWhitespace(s[k])
  {
    var a := TrimStart(s);
    var r := TrimEnd(a);
    i := |s| - |a|;
    Seqs.SliceOfSuffix(s, a, i, |r|);
    forall k | 0 <= k < i ensures IsWhitespace(s[k]) {
      assert s[..i][k] == s[k];
    }
    forall k | i + |r| <= k < |s| ensures IsWhitespace(s[k]) {
      assert a[|r|..][k - i - |r|] == s[k];
    }
  }

  /** Trimming removes characters and adds none, so it cannot add a separator. */
  lemma TrimKeepsNoSep(s: string, seps: set<char>)
    requires NoSep(s, seps)
    ensures NoSep(Trim(s), seps)
  {
    var i := TrimSlice(s);
    forall k | 0 <= k < |Trim(s)| ensures Trim(s)[k] !in seps {
      assert Trim(s)[k] == s[i + k];
    }
  }

  /** A text trims to nothing exactly when it is all whitespace. */
  lemma TrimEmpty(s: string)
    ensures Trim(s) == [] <==> AllWhitespace(s)
  {
    var a := TrimStart(s);
    if Trim(s) == [] {
      assert a[0..] == a;
      assert s == s[..|s| - |a|] + a;
    }
    if AllWhitespace(s) {
      assert a == [];
    }
  }

  /** Text with no whitespace at either end is left alone by trimming. */
  lemma TrimFixed(s: string)
    requires Trimmed(s)
    ensures Trim(s) == s
  {
    assert TrimStart(s) == s;
    assert TrimEnd(s) == s;
  }

  /** Trimming twice is trimming once. */
  lemma TrimIdempotent(s: string)
    ensures Trim(Trim(s)) == Trim(s)
  {
    TrimFixed(Trim(s));
  }

  /** A piece of text that holds none of the separator characters. */
  predicate NoSep(p: string, seps: set<char>) {
    forall k :: 0 <= k < |p| ==> p[k] !in seps
  }

  /** The separator characters of `s`, in order. */
  function SepsIn(s: string, seps: set<char>): (r: string)
    ensures forall k :: 0 <= k < |r| ==> r[k] in seps
    decreases |s|
  {
    if s == [] then []
    else (if s[0] in seps then [s[0]] else []) + SepsIn(s[1..], seps)
  }

  /** JavaScript's `String.prototype.split` with a one-character separator class
      (`split('=')`, `split(/[;\n]/)`): always at least one piece, one more piece
      than there are separators, and no piece holds a separator. */
  function Split(s: string, seps: set<char>): (r: seq<string>)
    ensures |r| == |SepsIn(s, seps)| + 1
    ensures forall i :: 0 <= i < |r| ==> NoSep(r[i], seps)
    decreases |s|
  {
    if s == [] then [[]]
    else
      var rest := Split(s[1..], seps);
      if s[0] in seps then [[]] + rest
      else [[s[0]] + rest[0]] + rest[1..]
  }

  /** Puts the pieces back together with `between[i]` between pieces `i` and `i + 1`. */
  function JoinWith(pieces: seq<string>, between: string): string
    requires |pieces| == |between| + 1
    decreases |between|
  {
    if between == [] then pieces[0]
    else pieces[0] + [between[0]] + JoinWith(pieces[1..], between[1..])
  }

  /** Splitting loses nothing: the pieces and the separators rebuild the text. */
  lemma {:induction false} SplitJoin(s: string, seps: set<char>)
    ensures JoinWith(Split(s, seps), SepsIn(s, seps)) == s
    decreases |s|
  {
    if s != [] {
      var rest := Split(s[1..], seps);
      SplitJoin(s[1..], seps);
      var b := SepsIn(s[1..], seps);
      if s[0] in seps {
        assert Split(s, seps)[1..] == rest;
        assert s == [s[0]] + s[1..];
      } else if b == [] {
        assert s == [s[0]] + s[1..];
      } else {
        var r := Split(s, seps);
        assert SepsIn(s, seps) == b;
        assert r[1..] == rest[1..];
        assert JoinWith(rest, b) == rest[0] + [b[0]] + JoinWith(rest[1..], b[1..]);
        assert JoinWith(r, b) == r[0] + [b[0]] + JoinWith(rest[1..], b[1..]);
        assert s == [s[0]] + s[1..];
      }
    }
  }

  /** A text without separators splits into itself alone. */
  lemma {:induction false} SplitNoSep(p: string, seps: set<char>)
    requires NoSep(p, seps)
    ensures Split(p, seps) == [p]
    decreases |p|
  {
    if p != [] {
      SplitNoSep(p[1..], seps);
      assert p == [p[0]] + p[1..];
    }
  }

  lemma NoSepTail(p: string, seps: set<char>)
    requires p != [] && NoSep(p, seps)
    ensures NoSep(p[1..], seps)
  {
    forall k | 0 <= k < |p[1..]| ensures p[1..][k] !in seps { assert p[1..][k] == p[k + 1]; }
  }

  /** A non-separator character joins the first piece of what follows it. */
  lemma SplitCons(c: char, s: string, seps: set<char>)
    requires c !in seps
    ensures Split([c] + s, seps) == [[c] + Split(s, seps)[0]] + Split(s, seps)[1..]
  {
    assert ([c] + s)[1..] == s;
  }

  /** The inductive step of `SplitPrefix`: one more non-separator in front. */
  lemma SplitPrefixStep(p: string, u: string, seps: set<char>)
    requires p != [] && p[0] !in seps
    requires Split(p[1..] + u, seps) == [p[1..] + Split(u, seps)[0]] + Split(u, seps)[1..]
    ensures Split(p + u, seps) == [p + Split(u, seps)[0]] + Split(u, seps)[1..]
  {
    var x := Split(u, seps);
    var rest := Split(p[1..] + u, seps);
    Seqs.HeadConcat(p, u);
    SplitCons(p[0], p[1..] + u, seps);
    Seqs.HeadConcat(p, x[0]);
  }

  /** A separator-free prefix sticks to the first piece of what follows it. */
  lemma {:induction false} SplitPrefix(p: string, u: string, seps: set<char>)
    requires NoSep(p, seps)
    ensures Split(p + u, seps) == [p + Split(u, seps)[0]] + Split(u, seps)[1..]
    decreases |p|
  {
    if p != [] {
      NoSepTail(p, seps);
      SplitPrefix(p[1..], u, seps);
      SplitPrefixStep(p, u, seps);
    } else {
      assert p + u == u;
      assert p + Split(u, seps)[0] == Split(u, seps)[0];
    }
  }

  /** Joining separator-free pieces with separators and splitting again gives the pieces back. */
  lemma {:induction false} JoinSplit(pieces: seq<string>, between: string, seps: set<char>)
    requires |pieces| == |between| + 1
    requires forall i :: 0 <= i < |pieces| ==> NoSep(pieces[i], seps)
    requires forall k :: 0 <= k < |between| ==> between[k] in seps
    ensures Split(JoinWith(pieces, between), seps) == pieces
    decreases |between|
  {
    if between == [] {
      SplitNoSep(pieces[0], seps);
    } else {
      var tail := JoinWith(pieces[1..], between[1..]);
      JoinSplit(pieces[1..], between[1..], seps);
      var u := [between[0]] + tail;
      assert u[1..] == tail;
      assert Split(u, seps) == [[]] + pieces[1..];
      SplitPrefix(pieces[0], u, seps);
      assert JoinWith(pieces, between) == pieces[0] + u;
      assert Split(u, seps)[0] == [] && Split(u, seps)[1..] == pieces[1..];
      assert pieces[0] + [] == pieces[0];
      assert pieces == [pieces[0]] + pieces[1..];
    }
  }

  /** The rule one piece defines: `const [key, value] = pair.split('=')` followed by
      `if (key && value) rules[key.trim()] = value.trim()`.  The non-empty test is on
      the untrimmed texts; `value` is `undefined` when the piece has no `=`. */
  function Entry(piece: string): (r: Option<(string, string)>)
    ensures r.Some? ==> Trimmed(r.value.0) && Trimmed(r.value.1)
    ensures r.Some? ==> NoSep(r.value.0, {'='}) && NoSep(r.value.1, {'='})
  {
    var parts := Split(piece, {'='});
    if parts[0] != [] && |parts| >= 2 && parts[1] != [] then
      TrimKeepsNoSep(parts[0], {'='});
      TrimKeepsNoSep(parts[1], {'='});
      Some((Trim(parts[0]), Trim(parts[1])))
    else None
  }

  /** For `key=value` or `key=value=more...`, the stored value is the text between the
      first and the second `=`; both sides must be non-empty before trimming. */
  lemma EntryOfAssignment(key: string, value: string, rest: string)
    requires NoSep(key, {'='}) && NoSep(value, {'='})
    requires rest == [] || rest[0] == '='
    ensures Entry(key + ['='] + value + rest)
            == (if key != [] && value != [] then Some((Trim(key), Trim(value))) else None)
  {
    var eq: set<char> := {'='};
    var u := ['='] + (value + rest);
    assert key + ['='] + value + rest == key + u;
    var y := Split(rest, eq);
    assert y[0] == [] by {
      if rest != [] {
        assert rest[0] in eq;
      }
    }
    SplitPrefix(value, rest, eq);
    var z := Split(value + rest, eq);
    assert z[0] == value by { assert value + y[0] == value; }
    assert u[0] in eq && u[1..] == value + rest;
    var x := Split(u, eq);
    assert x == [[]] + z;
    SplitPrefix(key, u, eq);
    var parts := Split(key + u, eq);
    assert parts == [key + x[0]] + x[1..];
    assert parts[0] == key by { assert key + [] == key; }
    assert |parts| >= 2 && parts[1] == value;
  }

  /** A piece with no `=` defines nothing. */
  lemma EntryWithoutEquals(piece: string)
    requires NoSep(piece, {'='})
    ensures Entry(piece) == None
  {
    SplitNoSep(piece, {'='});
  }

  /** `.filter(pair => pair.trim() !== '')`: the pieces that are not all whitespace, in order. */
  function NonBlank(pieces: seq<string>): (r: seq<string>)
    ensures |r| <= |pieces|
    ensures forall i :: 0 <= i < |r| ==> Trim(r[i]) != []
    ensures forall p :: p in r <==> p in pieces && Trim(p) != []
  {
    if pieces == [] then []
    else if Trim(pieces[0]) != [] then [pieces[0]] + NonBlank(pieces[1..])
    else NonBlank(pieces[1..])
  }

  /** The entry each piece contributes, in order. */
  function Entries(pieces: seq<string>): (r: seq<Option<(string, string)>>)
    ensures |r| == |pieces|
    decreases |pieces|
  {
    if pieces == [] then [] else [Entry(pieces[0])] + Entries(pieces[1..])
  }

  lemma {:induction false} EntriesAt(pieces: seq<string>, i: int)
    requires 0 <= i < |pieces|
    ensures Entries(pieces)[i] == Entry(pieces[i])
    decreases i
  {
    if i > 0 {
      EntriesAt(pieces[1..], i - 1);
    }
  }

  /** The key the `Object.prototype.__proto__` setter swallows. */
  const ProtoKey: string := "__proto__"

  /** Every entry of the pieces is well formed, as `Entry` promises. */
  lemma EntriesWellFormed(pieces: seq<string>)
    ensures forall i :: 0 <= i < |Entries(pieces)| && Entries(pieces)[i].Some? ==>
              Trimmed(Entries(pieces)[i].value.0) && Trimmed(Entries(pieces)[i].value.1)
              && NoSep(Entries(pieces)[i].value.0, {'='}) && NoSep(Entries(pieces)[i].value.1, {'='})
  {
    forall i | 0 <= i < |Entries(pieces)| && Entries(pieces)[i].Some?
      ensures Trimmed(Entries(pieces)[i].value.0) && Trimmed(Entries(pieces)[i].value.1)
              && NoSep(Entries(pieces)[i].value.0, {'='}) && NoSep(Entries(pieces)[i].value.1, {'='})
    {
      EntriesAt(pieces, i);
    }
  }

  /** `rules[key.trim()] = value.trim()`: stores one entry, a repeated key overwrites,
      and `__proto__` is not stored; every other key keeps its value. */
  function Apply(acc: Rules, e: Option<(string, string)>): (r: Rules)
    ensures r.Keys == acc.Keys + (if e.Some? && e.value.0 != ProtoKey then {e.value.0} else {})
    ensures e.Some? && e.value.0 != ProtoKey ==> r[e.value.0] == e.value.1
    ensures forall k | k in acc && (e.None? || k != e.value.0) :: r[k] == acc[k]
  {
    match e
    case None => acc
    case Some((k, v)) => if k == ProtoKey then acc else acc[k := v]
  }

  /** `rulePairs.forEach(...)`: applies the pieces' entries left to right. */
  function Collect(entries: seq<Option<(string, string)>>, acc: Rules): Rules
    decreases |entries|
  {
    if entries == [] then acc
    else Collect(entries[1..], Apply(acc, entries[0]))
  }

  /** The `;`/newline-separated pieces of a rules text. */
  function Pieces(text: string): seq<string> {
    Split(text, {';', '\n'})
  }

  /** Every stored key and value is trimmed and holds no `=`, and `__proto__` is absent. */
  predicate WellFormed(m: Rules) {
    && ProtoKey !in m
    && forall k | k in m :: Trimmed(k) && Trimmed(m[k]) && NoSep(k, {'='}) && NoSep(m[k], {'='})
  }

  /** Collecting well-formed entries keeps a map well formed. */
  lemma {:induction false} CollectWellFormed(entries: seq<Option<(string, string)>>, acc: Rules)
    requires WellFormed(acc)
    requires forall i :: 0 <= i < |entries| && entries[i].Some? ==>
               Trimmed(entries[i].value.0) && Trimmed(entries[i].value.1)
               && NoSep(entries[i].value.0, {'='}) && NoSep(entries[i].value.1, {'='})
    ensures WellFormed(Collect(entries, acc))
    decreases |entries|
  {
    if entries != [] {
      assert WellFormed(Apply(acc, entries[0]));
      CollectWellFormed(entries[1..], Apply(acc, entries[0]));
    }
  }

  /** `_parseRules(rulesString)`: keys and values are stored trimmed, neither holds an
      `=`, and no `__proto__` key is ever created. */
  function ParseRules(text: string): (r: Rules)
    ensures WellFormed(r)
  {
    var es := Entries(NonBlank(Pieces(text)));
    EntriesWellFormed(NonBlank(Pieces(text)));
    CollectWellFormed(es, map[]);
    Collect(es, map[])
  }

  /** Entry `i` stores a rule for key `k`: it defines `k`, and `k` is not `__proto__`. */
  predicate Defines(entries: seq<Option<(string, string)>>, i: int, k: string) {
    0 <= i < |entries| && entries[i].Some? && entries[i].value.0 == k && k != ProtoKey
  }

  /** Entry `i` is the last one that defines a rule for `k`. */
  predicate LastDefinition(entries: seq<Option<(string, string)>>, i: int, k: string) {
    Defines(entries, i, k) && forall j :: i < j < |entries| ==> !Defines(entries, j, k)
  }

  /** A blank piece defines nothing, so dropping blank pieces changes nothing. */
  lemma {:induction false} BlankDefinesNothing(p: string)
    requires AllWhitespace(p)
    ensures Entry(p) == None
  {
    forall k | 0 <= k < |p| ensures p[k] != '=' {
      assert IsWhitespace(p[k]);
    }
    EntryWithoutEquals(p);
  }

  lemma EntriesCons(p: string, ps: seq<string>)
    ensures Entries([p] + ps) == [Entry(p)] + Entries(ps)
  {
    assert ([p] + ps)[1..] == ps;
  }

  lemma CollectCons(e: Option<(string, string)>, es: seq<Option<(string, string)>>, acc: Rules)
    ensures Collect([e] + es, acc) == Collect(es, Apply(acc, e))
  {
    assert ([e] + es)[1..] == es;
  }

  lemma {:induction false} CollectNonBlank(pieces: seq<string>, acc: Rules)
    ensures Collect(Entries(NonBlank(pieces)), acc) == Collect(Entries(pieces), acc)
    decreases |pieces|
  {
    if pieces != [] {
      var tail := pieces[1..];
      if Trim(pieces[0]) != [] {
        EntriesCons(pieces[0], NonBlank(tail));
        CollectCons(Entry(pieces[0]), Entries(NonBlank(tail)), acc);
        CollectNonBlank(tail, Apply(acc, Entry(pieces[0])));
      } else {
        TrimEmpty(pieces[0]);
        BlankDefinesNothing(pieces[0]);
        CollectNonBlank(tail, acc);
      }
    }
  }

  /** `Collect` keeps a key exactly when the accumulator or some entry has it. */
  lemma {:induction false} CollectKeys(entries: seq<Option<(string, string)>>, acc: Rules, k: string)
    ensures k in Collect(entries, acc) <==> k in acc || exists i :: Defines(entries, i, k)
    decreases |entries|
  {
    if entries != [] {
      var tail := entries[1..];
      CollectKeys(tail, Apply(acc, entries[0]), k);
      assert k in Apply(acc, entries[0]) <==> k in acc || Defines(entries, 0, k);
      if exists i :: Defines(tail, i, k) {
        var i :| Defines(tail, i, k);
        assert Defines(entries, i + 1, k);
      }
      if exists i :: Defines(entries, i, k) {
        var i :| Defines(entries, i, k);
        if i > 0 {
          assert Defines(tail, i - 1, k);
        }
      }
    }
  }

  /** A key no entry defines keeps the accumulator's value. */
  lemma {:induction false} CollectUntouched(entries: seq<Option<(string, string)>>, acc: Rules, k: string)
    requires k in acc
    requires forall i :: 0 <= i < |entries| ==> !Defines(entries, i, k)
    ensures k in Collect(entries, acc) && Collect(entries, acc)[k] == acc[k]
    decreases |entries|
  {
    if entries != [] {
      var tail := entries[1..];
      assert !Defines(entries, 0, k);
      forall j | 0 <= j < |tail| ensures !Defines(tail, j, k) {
        assert !Defines(entries, j + 1, k);
      }
      CollectUntouched(tail, Apply(acc, entries[0]), k);
    }
  }

  /** The last defining entry decides the stored value. */
  lemma {:induction false} CollectLast(entries: seq<Option<(string, string)>>, acc: Rules, i: int, k: string)
    requires LastDefinition(entries, i, k)
    ensures k in Collect(entries, acc) && Collect(entries, acc)[k] == entries[i].value.1
    decreases |entries|
  {
    var tail := entries[1..];
    var acc1 := Apply(acc, entries[0]);
    if i == 0 {
      forall j | 0 <= j < |tail| ensures !Defines(tail, j, k) {
        assert !Defines(entries, j + 1, k);
      }
      CollectUntouched(tail, acc1, k);
    } else {
      forall j | i - 1 < j < |tail| ensures !Defines(tail, j, k) {
        assert !Defines(entries, j + 1, k);
      }
      CollectLast(tail, acc1, i - 1, k);
    }
  }

  /** The meaning of `_parseRules`, keys: key `k` is present iff some piece of the
      rules text defines it. */
  lemma {:induction false} ParseRulesKeys(text: string, k: string)
    ensures k in ParseRules(text) <==> exists i :: Defines(Entries(Pieces(text)), i, k)
  {
    CollectNonBlank(Pieces(text), map[]);
    CollectKeys(Entries(Pieces(text)), map[], k);
  }

  /** The meaning of `_parseRules`, values: a key holds the trimmed value of the last
      piece that defines it, so a later duplicate overwrites an earlier one. */
  lemma {:induction false} ParseRulesLastWins(text: string, k: string, i: int)
    requires LastDefinition(Entries(Pieces(text)), i, k)
    ensures k in ParseRules(text) && ParseRules(text)[k] == Entries(Pieces(text))[i].value.1
  {
    CollectNonBlank(Pieces(text), map[]);
    CollectLast(Entries(Pieces(text)), map[], i, k);
  }

  /** A text holding an `=` is not blank. */
  lemma EqualsNotBlank(p: string, i: int)
    requires 0 <= i < |p| && p[i] == '='
    ensures Trim(p) != []
  {
    TrimEmpty(p);
  }

  /** A rules text with no separator and some non-whitespace is one entry. */
  lemma {:induction false} SinglePieceEntries(p: string)
    requires NoSep(p, {';', '\n'}) && Trim(p) != []
    ensures Entries(NonBlank(Pieces(p))) == [Entry(p)]
  {
    SplitNoSep(p, {';', '\n'});
    var ps: seq<string> := [p];
    assert NonBlank(ps) == ps by {
      assert ps[1..] == [];
    }
    assert Entries(ps) == [Entry(p)] + Entries([]);
  }

  /** Collecting one entry applies it once. */
  lemma CollectOne(e: Option<(string, string)>, acc: Rules)
    ensures Collect([e], acc) == Apply(acc, e)
  {
    CollectCons(e, [], acc);
    assert [e] + [] == [e];
  }

  /** A rules text with no separator and some non-whitespace is collected from its one entry. */
  lemma SinglePieceCollect(p: string)
    requires NoSep(p, {';', '\n'}) && Trim(p) != []
    ensures ParseRules(p) == Collect([Entry(p)], map[])
  {
    ParseRulesCollects(p);
    SinglePieceEntries(p);
  }

  /** `_parseRules` collects the entries of the non-blank pieces into an empty map. */
  lemma ParseRulesCollects(text: string)
    ensures ParseRules(text) == Collect(Entries(NonBlank(Pieces(text))), map[])
  {
  }

  /** A rules text that is one defining piece holds exactly that rule. */
  lemma {:induction false} SinglePieceRules(p: string, k: string, v: string)
    requires NoSep(p, {';', '\n'}) && Trim(p) != [] && Entry(p) == Some((k, v))
    ensures ParseRules(p) == if k == ProtoKey then map[] else map[k := v]
  {
    SinglePieceCollect(p);
    CollectOne(Some((k, v)), map[]);
  }

  /** A rules text that is a single piece `key=value` or `key=value=more...` stores
      exactly one rule, the trimmed key to the trimmed text between the first and the
      second `=`; whatever follows the second `=` is ignored (`A=B=C` stores `B`).  A
      trimmed key `__proto__` stores nothing at all. */
  lemma {:induction false} ParseKeepsTextBeforeSecondEquals(key: string, value: string, rest: string)
    requires NoSep(key, {'='}) && NoSep(value, {'='}) && (rest == [] || rest[0] == '=')
    requires key != [] && value != []
    requires NoSep(key + ['='] + value + rest, {';', '\n'})
    ensures ParseRules(key + ['='] + value + rest)
            == if Trim(key) == ProtoKey then map[] else map[Trim(key) := Trim(value)]
  {
    var p := key + ['='] + value + rest;
    EqualsNotBlank(p, |key|);
    EntryOfAssignment(key, value, rest);
    SinglePieceRules(p, Trim(key), Trim(value));
  }
}

=== FILE: seqs.dfy ===
/** Slicing facts about sequences, kept apart so that they are proved in a small context. */
module Seqs {

  /** A prefix one longer is the prefix and the next element. */
  lemma PrefixSnoc<T>(s: seq<T>, j: nat)
    requires j < |s|
    ensures s[..j + 1] == s[..j] + [s[j]]
  {
  }

  /** A suffix is its first element followed by the suffix one shorter. */
  lemma SuffixCons<T>(s: seq<T>, i: nat)
    requires i < |s|
    ensures s[i..] == [s[i]] + s[i + 1..]
  {
  }

  /** Slicing a suffix of `s` is slicing `s` further along. */
  lemma SliceOfSuffix<T>(s: seq<T>, a: seq<T>, i: nat, n: nat)
    requires i <= |s| && a == s[i..] && n <= |a|
    ensures a[..n] == s[i..i + n] && a[n..] == s[i + n..]
  {
  }

  /** Appending to a non-empty sequence keeps its head in front. */
  lemma HeadConcat<T>(p: seq<T>, u: seq<T>)
    requires p != []
    ensures p + u == [p[0]] + (p[1..] + u)
  {
  }

  /** Dropping the head of a concatenation with a non-empty front drops the front's head. */
  lemma TailConcat<T>(p: seq<T>, u: seq<T>)
    requires p != []
    ensures p + u != [] && (p + u)[0] == p[0] && (p + u)[1..] == p[1..] + u
  {
  }

  /** Concatenation is associative. */
  lemma ConcatAssoc<T>(a: seq<T>, b: seq<T>, c: seq<T>)
    ensures a + (b + c) == (a + b) + c
  {
  }
}

=== FILE: turtle.dfy ===
/**
  The turtle's discrete state, common to the `Turtle` classes of lsystem.js,
  js/renderer.worker.js and renderer.worker.js: a position, a heading in degrees, a
  stack of saved poses for `[` and `]`, a running axis-aligned bounding box and the
  `Path2D` command list the worker turtles build.

  Coordinates and headings are reals.  The trigonometric step of `forward`
  (`x + cos(angle) * length`, `y + sin(angle) * length`) is taken through an opaque
  direction function `dir` of the heading.
 */
module Turtle {
  import opened Wrappers

  datatype Point = Point(x: real, y: real)

  /** What `push` saves and `pop` restores. */
  datatype Pose = Pose(x: real, y: real, angle: real)

  /** The running box; `NoBounds` is the reset state, whose minima are `Infinity` and
      maxima `-Infinity`. */
  datatype Bounds = NoBounds | Box(minX: real, minY: real, maxX: real, maxY: real)

  /** The `Path2D` commands the worker turtles issue. */
  datatype PathCmd = MoveTo(to: Point) | LineTo(to: Point)

  datatype Turtle = Turtle(x: real, y: real, angle: real, saved: seq<Pose>,
                           bounds: Bounds, path: seq<PathCmd>)

  /** The reset heading, pointing up the canvas. */
  const StartHeading: real := -90.0

  /** `reset()`: bottom centre of a `width` by `height` canvas, heading up, nothing
      saved, no bounds and an empty path. */
  function Reset(width: real, height: real): (r: Turtle)
    ensures PoseOf(r) == Pose(width / 2.0, height, StartHeading)
    ensures r.saved == [] && r.path == []
    ensures forall x: real, y: real :: !Contains(r.bounds, x, y)
  {
    Turtle(width / 2.0, height, StartHeading, [], NoBounds, [])
  }

  function PoseOf(t: Turtle): Pose {
    Pose(t.x, t.y, t.angle)
  }

  predicate Contains(b: Bounds, x: real, y: real) {
    b.Box? && b.minX <= x <= b.maxX && b.minY <= y <= b.maxY
  }

  /** Every point inside `inner` is inside `outer`. */
  predicate Covers(outer: Bounds, inner: Bounds) {
    inner.Box? ==>
      && outer.Box?
      && outer.minX <= inner.minX && inner.maxX <= outer.maxX
      && outer.minY <= inner.minY && inner.maxY <= outer.maxY
  }

  function Min(a: real, b: real): real { if a <= b then a else b }
  function Max(a: real, b: real): real { if a >= b then a else b }

  /** `_updateBounds(x, y)`: grows the box to hold the point, never shrinking it. */
  function UpdateBounds(b: Bounds, x: real, y: real): (r: Bounds)
    ensures Contains(r, x, y)
    ensures Covers(r, b)
  {
    match b
    case NoBounds => Box(x, y, x, y)
    case Box(x0, y0, x1, y1) => Box(Min(x0, x), Min(y0, y), Max(x1, x), Max(y1, y))
  }

  /** `_updateBounds` grows the box no more than it must: any box that holds the old
      box and the point holds the new one. */
  lemma UpdateBoundsLeast(b: Bounds, x: real, y: real, c: Bounds)
    requires Contains(c, x, y) && Covers(c, b)
    ensures Covers(c, UpdateBounds(b, x, y))
  {
  }

  lemma CoversTransitive(a: Bounds, b: Bounds, c: Bounds)
    requires Covers(a, b) && Covers(b, c)
    ensures Covers(a, c)
  {
  }

  /** `rotate(angle)`. */
  function Rotate(t: Turtle, a: real): (r: Turtle)
    ensures PoseOf(r) == Pose(t.x, t.y, t.angle + a)
    ensures r.saved == t.saved && r.bounds == t.bounds && r.path == t.path
  {
    t.(angle := t.angle + a)
  }

  /** `rotate` adds to the heading and touches nothing else; turning back undoes it. */
  lemma RotateOnlyTurns(t: Turtle, a: real)
    ensures Rotate(t, a).angle == t.angle + a
    ensures Rotate(t, a).(angle := t.angle) == t
    ensures Rotate(Rotate(t, a), -a) == t
  {
  }

  /** `push()`: saves the current pose on top of the stack. */
  function Push(t: Turtle): (r: Turtle)
    ensures PoseOf(r) == PoseOf(t)
    ensures r.saved == t.saved + [PoseOf(t)]
    ensures r.bounds == t.bounds && r.path == t.path
  {
    t.(saved := t.saved + [PoseOf(t)])
  }

  /** `pop()`: with an empty stack nothing happens; otherwise the top pose is removed
      and restored.  The worker turtles (`markPath`) also move the path to the
      restored position; the lsystem.js turtle has no path to move. */
  function Pop(t: Turtle, markPath: bool): (r: Turtle)
    ensures t.saved == [] ==> r == t
    ensures t.saved != [] ==> PoseOf(r) == t.saved[|t.saved| - 1]
    ensures t.saved != [] ==> r.saved == t.saved[..|t.saved| - 1]
    ensures r.bounds == t.bounds
    ensures t.saved != [] && markPath ==> r.path == t.path + [MoveTo(Point(r.x, r.y))]
    ensures !markPath ==> r.path == t.path
  {
    if t.saved == [] then t
    else
      var p := t.saved[|t.saved| - 1];
      var r := t.(x := p.x, y := p.y, angle := p.angle, saved := t.saved[..|t.saved| - 1]);
      if markPath then r.(path := t.path + [MoveTo(Point(p.x, p.y))]) else r
  }

  /** `push` then `pop` restores the saved pose and the stack; on the lsystem.js
      turtle it restores the turtle exactly. */
  lemma PopUndoesPush(t: Turtle, markPath: bool)
    ensures PoseOf(Pop(Push(t), markPath)) == PoseOf(t)
    ensures Pop(Push(t), markPath).saved == t.saved
    ensures !markPath ==> Pop(Push(t), false) == t
  {
    assert (t.saved + [PoseOf(t)])[..|t.saved|] == t.saved;
  }

  /** Where `forward(length)` lands: `dir(angle)` stands for `(cos, sin)` of the
      heading in degrees. */
  function Advance(t: Turtle, length: real, dir: real -> Point): Point {
    Point(t.x + dir(t.angle).x * length, t.y + dir(t.angle).y * length)
  }

  /** The worker turtles' `forward(length, draw)`: moves to the new point, adds a
      `lineTo` (or a `moveTo` when not drawing) and grows the bounds to hold the point. */
  function Forward(t: Turtle, length: real, draw: bool, dir: real -> Point): (r: Turtle)
    ensures Point(r.x, r.y) == Advance(t, length, dir)
    ensures r.bounds == UpdateBounds(t.bounds, r.x, r.y)
    ensures Contains(r.bounds, r.x, r.y)
    ensures Covers(r.bounds, t.bounds)
    ensures r.angle == t.angle && r.saved == t.saved
    ensures |r.path| == |t.path| + 1 && r.path[..|t.path|] == t.path
    ensures r.path[|t.path|] == (if draw then LineTo(Point(r.x, r.y)) else MoveTo(Point(r.x, r.y)))
  {
    var p := Advance(t, length, dir);
    var cmd := if draw then LineTo(p) else MoveTo(p);
    assert (t.path + [cmd])[..|t.path|] == t.path;
    t.(x := p.x, y := p.y, path := t.path + [cmd], bounds := UpdateBounds(t.bounds, p.x, p.y))
  }

  /** The lsystem.js turtle's `forward(length)`: strokes one segment from the old to
      the new position (`moveTo` then `lineTo`) and keeps no bounds. */
  function Stroke(t: Turtle, length: real, dir: real -> Point): (r: Turtle)
    ensures Point(r.x, r.y) == Advance(t, length, dir)
    ensures r.angle == t.angle && r.saved == t.saved && r.bounds == t.bounds
    ensures r.path == t.path + [MoveTo(Point(t.x, t.y)), LineTo(Point(r.x, r.y))]
  {
    var p := Advance(t, length, dir);
    t.(x := p.x, y := p.y, path := t.path + [MoveTo(Point(t.x, t.y)), LineTo(p)])
  }

  /** renderer.worker.js `beginLine()`: a fresh path that starts with a move to the
      current position, which is added to the bounds. */
  function BeginLine(t: Turtle): (r: Turtle)
    ensures PoseOf(r) == PoseOf(t) && r.saved == t.saved
    ensures r.path == [MoveTo(Point(t.x, t.y))]
    ensures Contains(r.bounds, t.x, t.y) && Covers(r.bounds, t.bounds)
    ensures r.bounds == UpdateBounds(t.bounds, t.x, t.y)
  {
    t.(path := [MoveTo(Point(t.x, t.y))], bounds := UpdateBounds(t.bounds, t.x, t.y))
  }

  /** A straight piece of ink. */
  datatype Segment = Segment(from: Point, to: Point)

  /** The segments a canvas strokes for a path, by the HTML canvas path rules: `moveTo`
      starts a new subpath; `lineTo` joins the current point to the new one, except on
      a path with no subpath yet, where it only starts a subpath at its point. */
  function Stroked(current: Option<Point>, path: seq<PathCmd>): seq<Segment>
    decreases |path|
  {
    if path == [] then []
    else match path[0]
      case MoveTo(p) => Stroked(Some(p), path[1..])
      case LineTo(p) =>
        (if current.Some? then [Segment(current.value, p)] else []) + Stroked(Some(p), path[1..])
  }

  function DrawnSegments(path: seq<PathCmd>): seq<Segment> {
    Stroked(None, path)
  }

  /** The number of `lineTo` commands in a path. */
  function LineCount(path: seq<PathCmd>): nat
    decreases |path|
  {
    if path == [] then 0 else (if path[0].LineTo? then 1 else 0) + LineCount(path[1..])
  }

  lemma {:induction false} LineCountConcat(a: seq<PathCmd>, b: seq<PathCmd>)
    ensures LineCount(a + b) == LineCount(a) + LineCount(b)
    decreases |a|
  {
    if a == [] {
      assert a + b == b;
    } else {
      assert (a + b)[1..] == a[1..] + b;
      LineCountConcat(a[1..], b);
    }
  }

  /** Every `lineTo` strokes a segment except a `lineTo` that opens the path. */
  lemma {:induction false} StrokedCount(current: Option<Point>, path: seq<PathCmd>)
    ensures |Stroked(current, path)|
            == LineCount(path) - (if current.None? && path != [] && path[0].LineTo? then 1 else 0)
    decreases |path|
  {
    if path != [] {
      StrokedCount(Some(path[0].to), path[1..]);
    }
  }

  /** A path that opens with `moveTo` strokes one segment per `lineTo`. */
  lemma DrawnSegmentsOfOpenedPath(path: seq<PathCmd>)
    requires path != [] && path[0].MoveTo?
    ensures |DrawnSegments(path)| == LineCount(path)
  {
    StrokedCount(None, path);
  }
}

=== FILE: worklist.dfy ===
/**
  The worklist expansion of the worker renderers (`LSystem.run` in
  js/renderer.worker.js, `LSystem.draw` in renderer.worker.js).  Instead of building
  the n-fold rewrite in memory, the workers keep a LIFO stack of frames
  `[text, remaining]`, starting from `[axiom, iterations]`.  A popped frame with
  nothing remaining is interpreted character by character; any other frame pushes,
  from its last character down to its first, `[rules[c], remaining - 1]` when `c` has
  a truthy rule and `[c, 0]` otherwise, so its first character ends on top.

  The headline property: the characters the workers interpret, in order, are exactly
  the n-fold literal rewrite of the axiom (`Literal.Rewrite`), so the turtle ends
  where the lsystem.js interpreter would have left it on the same string.
 */
module Worklist {
  import opened Wrappers
  import opened RuleText
  import opened Literal
  import opened Turtle
  import opened Dispatch
  import opened Seqs

  /** One stack entry `[text, remainingIterations]`. */
  datatype Frame = Frame(text: string, depth: nat)

  /** The frame pushed for character `c` of a frame with `depth > 0` passes left. */
  function Child(rules: Rules, c: char, depth: nat): (f: Frame)
    requires depth > 0
    ensures f.depth < depth
    ensures Lookup(rules, c).Some? ==> f == Frame(Lookup(rules, c).value, depth - 1)
    ensures Lookup(rules, c).None? ==> f == Frame([c], 0)
  {
    match Lookup(rules, c)
    case Some(v) => Frame(v, depth - 1)
    case None => Frame([c], 0)
  }

  /** A child stands for exactly the rewrite of its character: the rewrite of a ruled
      character is its replacement rewritten one pass fewer, and an unruled character
      is its own rewrite at every depth. */
  lemma ChildRewrite(rules: Rules, c: char, depth: nat)
    requires depth > 0
    ensures Rewrite(rules, Child(rules, c, depth).text, Child(rules, c, depth).depth)
            == Rewrite(rules, [c], depth)
  {
    var f := Child(rules, c, depth);
    match Lookup(rules, c)
    case Some(v) =>
      assert f == Frame(v, depth - 1);
      RewriteRuled(rules, c, depth - 1);
    case None =>
      assert f == Frame([c], 0);
      RewriteUnruled(rules, c, depth);
  }

  /** The number of pops a frame causes before all of it has been interpreted: its
      own pop, plus those of its children when it has passes left. */
  function Cost(rules: Rules, f: Frame): (r: nat)
    ensures r >= 1
    decreases f.depth, 1
  {
    if f.depth == 0 then 1 else 1 + ChildrenCost(rules, f.text, f.depth)
  }

  /** The pops caused by the children of the characters of `s` at `depth`. */
  function ChildrenCost(rules: Rules, s: string, depth: nat): nat
    requires depth > 0
    decreases depth, 0, |s|
  {
    if s == [] then 0 else Cost(rules, Child(rules, s[0], depth)) + ChildrenCost(rules, s[1..], depth)
  }

  /** The pops left for a whole stack. */
  function StackCost(rules: Rules, stack: seq<Frame>): nat
    decreases |stack|
  {
    if stack == [] then 0
    else Cost(rules, stack[|stack| - 1]) + StackCost(rules, stack[..|stack| - 1])
  }

  /** The characters a stack still has to emit: the top frame's rewrite first. */
  function Pending(rules: Rules, stack: seq<Frame>): string
    decreases |stack|
  {
    if stack == [] then []
    else
      var top := stack[|stack| - 1];
      Rewrite(rules, top.text, top.depth) + Pending(rules, stack[..|stack| - 1])
  }

  /** Pushing a frame puts its rewrite in front of what the stack still emits. */
  lemma PushPending(rules: Rules, stack: seq<Frame>, f: Frame)
    ensures Pending(rules, stack + [f]) == Rewrite(rules, f.text, f.depth) + Pending(rules, stack)
  {
    assert (stack + [f])[..|stack|] == stack;
  }

  /** Pushing a frame adds its pops to those of the stack. */
  lemma PushCost(rules: Rules, stack: seq<Frame>, f: Frame)
    ensures StackCost(rules, stack + [f]) == Cost(rules, f) + StackCost(rules, stack)
  {
    assert (stack + [f])[..|stack|] == stack;
  }

  /** One turn of the push loop: the child of `text[i]` goes on top of the children
      of `text[i + 1..]`, and the stack then emits the rewrite of `text[i..]` first. */
  lemma PushOnePending(rules: Rules, pushed: seq<Frame>, stack: seq<Frame>, text: string, i: nat, depth: nat)
    requires depth > 0 && i < |text|
    requires Pending(rules, pushed) == Rewrite(rules, text[i + 1..], depth) + Pending(rules, stack)
    ensures Pending(rules, pushed + [Child(rules, text[i], depth)])
            == Rewrite(rules, text[i..], depth) + Pending(rules, stack)
  {
    var c := text[i];
    var child := Child(rules, c, depth);
    var head := Rewrite(rules, [c], depth);
    var tail := Rewrite(rules, text[i + 1..], depth);
    PushPending(rules, pushed, child);
    ChildRewrite(rules, c, depth);
    ConcatAssoc(head, tail, Pending(rules, stack));
    SuffixCons(text, i);
    RewriteConcat(rules, [c], text[i + 1..], depth);
  }

  /** The same turn, counted in pops. */
  lemma PushOneCost(rules: Rules, pushed: seq<Frame>, stack: seq<Frame>, text: string, i: nat, depth: nat)
    requires depth > 0 && i < |text|
    requires StackCost(rules, pushed) == StackCost(rules, stack) + ChildrenCost(rules, text[i + 1..], depth)
    ensures StackCost(rules, pushed + [Child(rules, text[i], depth)])
            == StackCost(rules, stack) + ChildrenCost(rules, text[i..], depth)
  {
    PushCost(rules, pushed, Child(rules, text[i], depth));
    assert text[i..][1..] == text[i + 1..];
  }

  /** The `for (let i = current.length - 1; i >= 0; i--)` loop: pushes the children of
      `text`, last character first, so that the stack emits the rewrite of `text`
      before what it emitted already. */
  method PushChildren(rules: Rules, stack: seq<Frame>, text: string, depth: nat)
    returns (pushed: seq<Frame>)
    requires depth > 0
    ensures Pending(rules, pushed) == Rewrite(rules, text, depth) + Pending(rules, stack)
    ensures StackCost(rules, pushed) == StackCost(rules, stack) + ChildrenCost(rules, text, depth)
  {
    pushed := stack;
    var i := |text|;
    RewriteEmpty(rules, depth);
    assert text[i..] == [];
    while i > 0
      invariant 0 <= i <= |text|
      invariant Pending(rules, pushed) == Rewrite(rules, text[i..], depth) + Pending(rules, stack)
      invariant StackCost(rules, pushed) == StackCost(rules, stack) + ChildrenCost(rules, text[i..], depth)
    {
      i := i - 1;
      PushOnePending(rules, pushed, stack, text, i, depth);
      PushOneCost(rules, pushed, stack, text, i, depth);
      pushed := pushed + [Child(rules, text[i], depth)];
    }
    assert text[0..] == text;
  }

  /** Interprets a frame with no passes left, extending the characters emitted so far. */
  method Emit(d: Dialect, cfg: Config, t0: Turtle, stream: string, t: Turtle, text: string)
    returns (stream': string, t': Turtle)
    requires t == Interpret(d, cfg, t0, stream)
    ensures stream' == stream + text
    ensures t' == Interpret(d, cfg, t0, stream')
  {
    t' := Play(d, cfg, t, text);
    InterpretConcat(d, cfg, t0, stream, text);
    stream' := stream + text;
  }

  /** The `while (stack.length > 0)` loop, for any of the three dialects, from the
      turtle `t0`.  `stream` collects the characters handed to the interpreter, in
      order; it is the n-fold rewrite of the axiom, and the turtle is that string
      interpreted. */
  method Expand(rules: Rules, axiom: string, n: nat, d: Dialect, cfg: Config, t0: Turtle)
    returns (stream: string, t: Turtle)
    ensures stream == Rewrite(rules, axiom, n)
    ensures t == Interpret(d, cfg, t0, stream)
  {
    var stack := [Frame(axiom, n)];
    PushPending(rules, [], Frame(axiom, n));
    assert [] + [Frame(axiom, n)] == stack;
    stream := [];
    t := t0;
    while stack != []
      invariant stream + Pending(rules, stack) == Rewrite(rules, axiom, n)
      invariant t == Interpret(d, cfg, t0, stream)
      decreases StackCost(rules, stack)
    {
      var top := stack[|stack| - 1];
      var rest := stack[..|stack| - 1];
      assert Pending(rules, stack) == Rewrite(rules, top.text, top.depth) + Pending(rules, rest);
      assert StackCost(rules, stack) == Cost(rules, top) + StackCost(rules, rest);
      if top.depth == 0 {
        ConcatAssoc(stream, top.text, Pending(rules, rest));
        stream, t := Emit(d, cfg, t0, stream, t, top.text);
        stack := rest;
      } else {
        stack := PushChildren(rules, rest, top.text, top.depth);
      }
    }
  }

  /** renderer.worker.js `draw(iterations, turtle, angle, length)` on a fresh turtle:
      `beginLine`, then the worklist with `F` moving by `length`.  The box holds the
      start, every point reached and every saved pose, and each `F` strokes exactly
      one segment. */
  method Draw(axiom: string, rulesText: string, iterations: nat, angle: real, length: real,
              dir: real -> Point, width: real, height: real)
    returns (stream: string, t: Turtle)
    ensures stream == Rewrite(ParseRules(rulesText), axiom, iterations)
    ensures t == Interpret(DrawWorker, Config(angle, length, dir), BeginLine(Reset(width, height)), stream)
    ensures Tracked(t) && Contains(t.bounds, width / 2.0, height)
    ensures |DrawnSegments(t.path)| == Occurrences(stream, 'F')
  {
    var t0 := BeginLine(Reset(width, height));
    var cfg := Config(angle, length, dir);
    stream, t := Expand(ParseRules(rulesText), axiom, iterations, DrawWorker, cfg, t0);
    BeginLineTracked(Reset(width, height));
    InterpretKeepsTracked(DrawWorker, cfg, t0, stream);
    OpenedPathStrokesEveryStep(DrawWorker, cfg, t0, stream);
  }

  /** Starting from a path that opens with `moveTo`, a worker turtle strokes one
      segment per `F`. */
  lemma OpenedPathStrokesEveryStep(d: Dialect, cfg: Config, t0: Turtle, s: string)
    requires t0.path == [MoveTo(Point(t0.x, t0.y))]
    ensures |DrawnSegments(Interpret(d, cfg, t0, s).path)| == Occurrences(s, 'F')
  {
    var p := Interpret(d, cfg, t0, s).path;
    InterpretLineCount(d, cfg, t0, s);
    assert p[0] == p[..1][0];
    DrawnSegmentsOfOpenedPath(p);
  }

  /** js/renderer.worker.js `generate` as written: a fresh turtle, then `run`, whose
      `F` and `f` move by one unit, with no `beginLine`.  Each `F` issues a `lineTo`,
      but a `lineTo` on the fresh, empty path only opens a subpath, so the first `F`,
      when nothing before it has opened the path, draws nothing: the picture has one
      segment fewer than the string has `F`s whenever the string starts with `F`
      (`FirstStepLost` gives the exact count for any string). */
  method Run(axiom: string, rulesText: string, iterations: nat, angle: real,
             dir: real -> Point, width: real, height: real)
    returns (stream: string, t: Turtle)
    ensures stream == Rewrite(ParseRules(rulesText), axiom, iterations)
    ensures t == Interpret(RunWorker, Config(angle, 1.0, dir), Reset(width, height), stream)
    ensures iterations == 0 ==> stream == axiom
    ensures LineCount(t.path) == Occurrences(stream, 'F')
    ensures Occurrences(stream, 'F') - 1 <= |DrawnSegments(t.path)| <= Occurrences(stream, 'F')
    ensures stream != [] && stream[0] == 'F' ==> |DrawnSegments(t.path)| == Occurrences(stream, 'F') - 1
  {
    var t0 := Reset(width, height);
    stream, t := Expand(ParseRules(rulesText), axiom, iterations, RunWorker, Config(angle, 1.0, dir), t0);
    UnopenedPathLosesFirstStep(Config(angle, 1.0, dir), t0, stream);
  }

  /** On a turtle with an empty path, the run interpreter issues one `lineTo` per `F`
      and strokes at most one segment fewer than that: exactly one fewer when the
      string starts with `F`.  (`FirstStepLost` gives the exact count for any string;
      `+F`, for one, also strokes nothing.) */
  lemma UnopenedPathLosesFirstStep(cfg: Config, t0: Turtle, s: string)
    requires t0.path == []
    ensures LineCount(Interpret(RunWorker, cfg, t0, s).path) == Occurrences(s, 'F')
    ensures Occurrences(s, 'F') - 1 <= |DrawnSegments(Interpret(RunWorker, cfg, t0, s).path)| <= Occurrences(s, 'F')
    ensures s != [] && s[0] == 'F' ==> |DrawnSegments(Interpret(RunWorker, cfg, t0, s).path)| == Occurrences(s, 'F') - 1
  {
    var p := Interpret(RunWorker, cfg, t0, s).path;
    InterpretLineCount(RunWorker, cfg, t0, s);
    StrokedCount(None, p);
    if s != [] && s[0] == 'F' {
      var t1 := Act(RunWorker, cfg, t0, 'F');
      InterpretLineCount(RunWorker, cfg, t1, s[1..]);
      assert p[0] == p[..|t1.path|][0];
    }
  }

  /** The general form of the lost segment: split the string at its first `F` into
      `u + "F" + w`.  The first `F` strokes nothing exactly when `u` left the path empty,
      that is when no `f` and no `]` on a non-empty stack came before it; every other
      `F` strokes one segment. */
  lemma FirstStepLost(cfg: Config, t0: Turtle, u: string, w: string)
    requires t0.path == [] && Occurrences(u, 'F') == 0
    ensures |DrawnSegments(Interpret(RunWorker, cfg, t0, u + ['F'] + w).path)|
            == Occurrences(u + ['F'] + w, 'F') - (if Interpret(RunWorker, cfg, t0, u).path == [] then 1 else 0)
  {
    var s := u + ['F'] + w;
    var t1 := Interpret(RunWorker, cfg, t0, u);
    var t2 := Act(RunWorker, cfg, t1, 'F');
    var p := Interpret(RunWorker, cfg, t0, s).path;
    assert s == u + (['F'] + w);
    InterpretConcat(RunWorker, cfg, t0, u, ['F'] + w);
    assert (['F'] + w)[0] == 'F' && (['F'] + w)[1..] == w;
    assert p == Interpret(RunWorker, cfg, t2, w).path;
    InterpretLineCount(RunWorker, cfg, t0, s);
    InterpretLineCount(RunWorker, cfg, t0, u);
    InterpretLineCount(RunWorker, cfg, t2, w);
    StrokedCount(None, p);
    if t1.path == [] {
      assert t2.path == [LineTo(Point(t2.x, t2.y))];
      assert p[0] == p[..|t2.path|][0];
    } else {
      assert t2.path[..|t1.path|] == t1.path;
      assert p[0] == p[..|t2.path|][0] == t2.path[0] == t1.path[0];
      assert !t1.path[0].LineTo?;
    }
  }

  /** The smallest picture that shows the lost segment: axiom `F` with `F=FF` for one
      pass expands to `FF`, two `lineTo`s, of which js/renderer.worker.js strokes one. */
  lemma RunDropsFirstSegment(cfg: Config, width: real, height: real, rules: Rules)
    requires rules == map["F" := "FF"]
    ensures Rewrite(rules, "F", 1) == "FF"
    ensures Occurrences("FF", 'F') == 2
    ensures |DrawnSegments(Interpret(RunWorker, cfg, Reset(width, height), "FF").path)| == 1
  {
    assert Lookup(rules, 'F') == Some("FF");
    assert Step(rules, "F") == "FF" + Step(rules, []);
    UnopenedPathLosesFirstStep(cfg, Reset(width, height), "FF");
    assert Occurrences("FF", 'F') == 1 + Occurrences("F", 'F');
  }

  /** js/renderer.worker.js `generate` as evidently intended, and as renderer.worker.js
      does it: `beginLine` on the fresh turtle first, so the path opens at the start
      point, the box holds it, and every `F` strokes one segment. */
  method RunCorrected(axiom: string, rulesText: string, iterations: nat, angle: real,
                      dir: real -> Point, width: real, height: real)
    returns (stream: string, t: Turtle)
    ensures stream == Rewrite(ParseRules(rulesText), axiom, iterations)
    ensures t == Interpret(RunWorker, Config(angle, 1.0, dir), BeginLine(Reset(width, height)), stream)
    ensures Tracked(t) && Contains(t.bounds, width / 2.0, height)
    ensures |DrawnSegments(t.path)| == Occurrences(stream, 'F')
  {
    var t0 := BeginLine(Reset(width, height));
    var cfg := Config(angle, 1.0, dir);
    stream, t := Expand(ParseRules(rulesText), axiom, iterations, RunWorker, cfg, t0);
    BeginLineTracked(Reset(width, height));
    InterpretKeepsTracked(RunWorker, cfg, t0, stream);
    OpenedPathStrokesEveryStep(RunWorker, cfg, t0, stream);
  }

  /** lsystem.js `LSystemVisualizer.generate`: build the literal rewrite with
      `LSystem.generate`, reset the turtle and interpret the result; each `F` strokes
      its own segment.  The worker renderers interpret the very same string. */
  method Visualize(axiom: string, rulesText: string, iterations: int, angle: real, length: real,
                   dir: real -> Point, width: real, height: real)
    returns (result: string, t: Turtle)
    ensures result == Rewrite(ParseRules(rulesText), axiom, iterations)
    ensures t == Interpret(Visualizer, Config(angle, length, dir), Reset(width, height), result)
    ensures |DrawnSegments(t.path)| == Occurrences(result, 'F')
  {
    var sys := NewLSystem(axiom, rulesText);
    var next;
    next, result := Generate(sys, iterations);
    var cfg := Config(angle, length, dir);
    var t0 := Reset(width, height);
    t := Play(Visualizer, cfg, t0, result);
    VisualizerStrokesEveryStep(cfg, t0, result);
  }

  /** The lsystem.js turtle strokes every `F` as its own `moveTo`/`lineTo` pair. */
  lemma VisualizerStrokesEveryStep(cfg: Config, t0: Turtle, s: string)
    requires t0.path == []
    ensures |DrawnSegments(Interpret(Visualizer, cfg, t0, s).path)| == Occurrences(s, 'F')
  {
    var p := Interpret(Visualizer, cfg, t0, s).path;
    InterpretLineCount(Visualizer, cfg, t0, s);
    VisualizerPathOpens(cfg, t0, s);
    if p != [] {
      DrawnSegmentsOfOpenedPath(p);
    }
  }

  /** The lsystem.js turtle only ever appends `moveTo` first. */
  lemma {:induction false} VisualizerPathOpens(cfg: Config, t: Turtle, s: string)
    requires t.path == [] || t.path[0].MoveTo?
    ensures Interpret(Visualizer, cfg, t, s).path == [] || Interpret(Visualizer, cfg, t, s).path[0].MoveTo?
    decreases |s|
  {
    if s != [] {
      var t1 := Act(Visualizer, cfg, t, s[0]);
      assert t1.path == [] || t1.path[0].MoveTo? by {
        if s[0] == 'F' && t.path != [] {
          assert t1.path[0] == t.path[0];
        }
      }
      VisualizerPathOpens(cfg, t1, s[1..]);
    }
  }
}

=== FILE: wrappers.dfy ===
/** An optional value, used across the model. */
module Wrappers {

  /** A value that may be absent: JavaScript's `undefined` and falsy lookups. */
  datatype Option<+T> = None | Some(value: T) {

    /** The wrapped value, or `default` when absent (JavaScript's `a || b`). */
    function GetOr(default: T): T {
      match this
      case Some(v) => v
      case None => default
    }
  }
}
